=== FILE: README.md ===
# Zappy vendor events: lifecycle and OTP authority

This is a Dafny model of the backend's `EventsService` and of the two Mongoose schemas it uses, `Event` and `Otp`. A vendor checks in at an event and gets the event created in CHECKED_IN. The vendor then asks for a four-digit one-time code (`sendOtp`), and `sendOtp` returns the code in its own reply, as a mock of delivering it out of band. Submitting the code (`verifyOtp`) starts the event. The vendor then saves pre-setup notes and completes the event with post-setup notes.

The store is an immutable value `Store(events, otps)`:
- `events` is a map from event id to `Event`.
- `otps` is the sequence of `OtpRecord`s in insertion order. `findOne` without a sort returns the first match in natural order, which MongoDB does not promise to be insertion order. The model scans in insertion order, and `EventsService.ConsumeIgnoresWhichRecord` shows the choice does not matter: consuming any record held under the id string leaves the same store.

Each service method is a pure function of the store and its inputs, plus the time `now` where it reads the clock (`preSetup` does not). The return types differ:
- `checkIn` cannot fail in the model. It returns a `Step` with the new store and the created document.
- `sendOtp`, `verifyOtp`, `preSetup` and `postSetup` return a `Result`. A `Success` carries the new store and the reply. A `Failure` carries the HTTP exception the method raises (`BadRequest(message)`, `NotFound`, `Forbidden(message)`) and no store, so every failure leaves the store as it was.
- The checks `verifyVendor` and the setup guard return an `Outcome`: `Pass`, or `Fail` with the exception.

The modules, in dependency order:
- `Wrappers`: `Option`, `Result` and `Outcome`.
- `Decimal`: decimal rendering of a number, which is what JavaScript's `toString` gives for safe integers (below 2^53, covering every code), its inverse, and the four-digit code format.
- `Schemas`: the two record kinds and the defaults `create` applies.
- `OtpStore`: the collection operations `deleteMany` and `findOne`, and the pass of the TTL monitor.
- `EventsService`: the six service members and the constants they use.
- `Lifecycle`: the status transition table, and the store invariant every operation preserves.
- `OtpAuthority`: lemmas about pairs and sequences of operations. These cover supersession, single use, expiry, the TTL monitor's invisibility, two spellings of one id, and the setup guards.
- `OtpBody`: what the `otp` field of the request body can carry. It holds `verifyOtp` as written, where a query-operator object bypasses the code, and a checked version that refuses anything but a string (see "## Findings"). The request sequences in `Traces` run the version as written.
- `Traces`: arbitrary request sequences, with the invariant and the "dead code stays dead" properties over any trace, plus the walk-through of one visit.

Events and codes are looked up differently, as in the source:
- `findById` and `findByIdAndUpdate` cast the id string to an ObjectId. Several spellings of one id, such as upper- and lower-case hex, therefore reach the same event. The model takes this cast as a parameter `cast: IdCast`, and every event lookup goes through it.
- The code collection stores `eventId` as a plain string, and `deleteMany` and `findOne` compare it exactly.

So "one code", "supersession" and "single use" hold per id string. Two spellings of one event's id hold separate codes (`OtpAuthority.SpellingsHoldSeparateCodes`).

The model is faithful to two behaviours of the code that look unintended:
- `verifyOtp` never reads the event's status. A live code therefore moves a COMPLETED event back to STARTED and re-stamps `startedAt`.
- `verifyOtp` on an id with no event still answers "Event started" and changes no event, because the update matches nothing.

Both are kept as written and stated as lemmas (`OtpAuthority.CompletedEventRestarts`, `OtpAuthority.OrphanCodeStartsNothing`).

Time is milliseconds since the epoch, as a `nat` parameter. Three inputs the source obtains from outside become parameters:
- The random number behind a code is a `draw` of type `FourDigit` (1000..9999). This matches `Math.floor(1000 + Math.random() * 9000)`.
- `Types.ObjectId.isValid` is a function parameter `isValid`, and the ObjectId cast is the function parameter `cast`.
- The id the store gives a new event is a parameter that must not already be in use.

## Model

| member | source | states |
|---|---|---|
| Schemas.CreateEvent | zappy-vendor-backend/src/modules/events/schemas/event.schema.ts:9-46 | A created event keeps the given vendorId and location and gets status CHECKED_IN when none is given. It has no start, completion or setup field yet. |
| Schemas.CreateOtp | zappy-vendor-backend/src/modules/events/schemas/otp.schema.ts:8-18 | A created code record keeps its event id, code and expiry. It is verified only if the caller explicitly asked for that; the default is false. |
| Decimal.Show | zappy-vendor-backend/src/modules/events/events.service.ts:44 | `toString` of a safe integer (the codes are 1000..9999) yields a canonical decimal string: digits only, non-empty, no leading zero. |
| Decimal.ParseShow | zappy-vendor-backend/src/modules/events/events.service.ts:44 | Reading back the decimal string of a number gives the number. |
| Decimal.ShowParse | zappy-vendor-backend/src/modules/events/events.service.ts:44 | Every canonical decimal string is the string of the number it denotes. |
| Decimal.ShowInjective | zappy-vendor-backend/src/modules/events/events.service.ts:44 | Two numbers give the same string exactly when they are equal. |
| Decimal.FourDigitCode | zappy-vendor-backend/src/modules/events/events.service.ts:44 | A number in 1000..9999 is rendered as a four-character canonical decimal string. |
| Decimal.OtpCodeIffFourDigit | zappy-vendor-backend/src/modules/events/events.service.ts:44 | A string has the code format exactly when it is the rendering of some number in 1000..9999. |
| OtpStore.DeleteManyCounts | zappy-vendor-backend/src/modules/events/events.service.ts:42 | `deleteMany(q)` removes every copy of each record matching q and keeps every copy of every other record. |
| OtpStore.DeleteManyCommutes | zappy-vendor-backend/src/modules/events/events.service.ts:69 | Two deletes by different filters give the same collection, in the same order, whichever runs first. |
| OtpStore.MarkThenDelete | zappy-vendor-backend/src/modules/events/events.service.ts:67-69 | Marking a record verified and saving it, then deleting its event's codes, leaves what the delete alone would leave. |
| OtpStore.FindOne | zappy-vendor-backend/src/modules/events/events.service.ts:56-61 | `findOne` finds a record exactly when one has the event id and the code, is unverified and expires after now. The one found is the first such record. |
| OtpStore.LiveCodeIsStored | zappy-vendor-backend/src/modules/events/events.service.ts:56-61 | A code can be found only if it is stored for that event. |
| OtpStore.SweepKeepsLive | zappy-vendor-backend/src/modules/events/schemas/otp.schema.ts:24 | A TTL pass at or before now removes no record `findOne` could return at now. |
| EventsService.VerifyVendor | zappy-vendor-backend/src/modules/events/events.service.ts:21-25 | Passes exactly when the caller is the stored owner; otherwise Forbidden "Unauthorized vendor". |
| EventsService.CheckIn | zappy-vendor-backend/src/modules/events/events.service.ts:27-35 | Always succeeds and adds exactly one event: CHECKED_IN, stamped now, with the form's vendor and location and the photo name. It has no later field set, and every other event and all codes are unchanged. |
| EventsService.SendOtp | zappy-vendor-backend/src/modules/events/events.service.ts:37-53 | Fails with BadRequest "Invalid eventId" exactly when the id is ill-formed. Otherwise events are unchanged and the id string holds exactly one code record: the returned four-digit code of the draw, unverified, expiring one lifetime after now. Codes under other id strings are untouched. |
| EventsService.Consume | zappy-vendor-backend/src/modules/events/events.service.ts:67-74 | After findOne returns a record: the codes left are those the delete by id string leaves, and the event the id casts to, if any, is STARTED at now with every other field as before. Other events are untouched. |
| EventsService.ConsumeIgnoresWhichRecord | zappy-vendor-backend/src/modules/events/events.service.ts:56-74 | Whichever live record under the id string `findOne` returns, marking it and deleting by id string leaves the same store, so the unspecified natural order of `findOne` cannot change the outcome. |
| EventsService.VerifyOtp | zappy-vendor-backend/src/modules/events/events.service.ts:55-77 | Succeeds exactly when a live record is held under the id string; otherwise BadRequest "Invalid or expired OTP". On success no code remains under that string and every other string keeps its codes. The event the id casts to, if any, becomes STARTED with startedAt = now and no other field changed; no other event changes. |
| EventsService.SetupGuard | zappy-vendor-backend/src/modules/events/events.service.ts:85-92 | The checks run in order on the event the id casts to: a missing event gives NotFound, then a non-owner gives Forbidden, then a status other than STARTED gives BadRequest. It passes only for the owner of a STARTED event. |
| EventsService.PreSetup | zappy-vendor-backend/src/modules/events/events.service.ts:79-99 | Fails exactly as the guard does, with "OTP not verified" for the status check. On success only the pre-setup photo and notes of the event the id casts to change, each set to what was sent (absent when the field was omitted), and its status stays STARTED. |
| EventsService.PostSetup | zappy-vendor-backend/src/modules/events/events.service.ts:101-124 | Fails exactly as the guard does, with "Invalid event state" for the status check. On success the event the id casts to goes from STARTED to COMPLETED with completedAt = now and the post-setup photo and notes as sent (absent when omitted); nothing else changes. |
| EventsService.TtlSweep | zappy-vendor-backend/src/modules/events/schemas/otp.schema.ts:24 | A TTL pass at time t removes exactly the codes that expired before t and touches no event. |
| Lifecycle.SetupFollowsTable | zappy-vendor-backend/src/modules/events/events.service.ts:90-92 | For the owner, each setup operation succeeds exactly when the transition table admits it from the current status, and lands in the status the table names. |
| Lifecycle.VerifyFollowsTable | zappy-vendor-backend/src/modules/events/events.service.ts:71-74 | A successful verification lands in STARTED from any status. |
| Lifecycle.AtMostOneCodePerId | zappy-vendor-backend/src/modules/events/events.service.ts:42-50 | In a consistent store at most one code is held under each id string. |
| Lifecycle.CheckInPreservesInv | zappy-vendor-backend/src/modules/events/events.service.ts:27-35 | Check-in keeps the store consistent. |
| Lifecycle.SendOtpPreservesInv | zappy-vendor-backend/src/modules/events/events.service.ts:37-53 | Issuing a code keeps the store consistent: one unverified four-digit code per id string, issued for a well-formed id. |
| Lifecycle.VerifyOtpPreservesInv | zappy-vendor-backend/src/modules/events/events.service.ts:55-77 | Verification keeps the store consistent. |
| Lifecycle.PreSetupPreservesInv | zappy-vendor-backend/src/modules/events/events.service.ts:79-99 | Pre-setup keeps the store consistent. |
| Lifecycle.PostSetupPreservesInv | zappy-vendor-backend/src/modules/events/events.service.ts:101-124 | Post-setup keeps the store consistent; in particular completedAt follows startedAt, and post-setup notes or photo appear only on an event with a completion time. |
| Lifecycle.TtlSweepPreservesInv | zappy-vendor-backend/src/modules/events/schemas/otp.schema.ts:24 | A TTL pass keeps the store consistent. |
| Lifecycle.TimestampsAlongHappyPath | zappy-vendor-backend/src/modules/events/events.service.ts:27-124 | Along check-in, verification and post-setup with a non-decreasing clock, checkedInAt <= startedAt <= completedAt, each equal to its step's time. |
| OtpAuthority.FreshCodeVerifiesIff | zappy-vendor-backend/src/modules/events/events.service.ts:46-61 | Right after a code is issued under an id string, a verification with that string succeeds exactly for that code and exactly before its lifetime ends. |
| OtpAuthority.CodesDifferIffDrawsDiffer | zappy-vendor-backend/src/modules/events/events.service.ts:44 | Two issues give different codes exactly when the random numbers differ. |
| OtpAuthority.Supersession | zappy-vendor-backend/src/modules/events/events.service.ts:42-65 | After a second, different code is issued under the same id string, the first one fails with the same error as any wrong code. |
| OtpAuthority.ExpiredCodeFails | zappy-vendor-backend/src/modules/events/events.service.ts:46-65 | A code submitted once its lifetime has elapsed fails. |
| OtpAuthority.SingleUse | zappy-vendor-backend/src/modules/events/events.service.ts:67-69 | After a successful verification any further verification with the same id string fails, whatever the code and the time. |
| OtpAuthority.VerifyIgnoresSweep | zappy-vendor-backend/src/modules/events/schemas/otp.schema.ts:24 | Verifying after a TTL pass at or before now gives the same outcome as verifying without it, and the same store up to that pass. |
| OtpAuthority.CompletedEventRestarts | zappy-vendor-backend/src/modules/events/events.service.ts:71-74 | A live code moves a COMPLETED event back to STARTED with a startedAt later than its completedAt. |
| OtpAuthority.OrphanCodeStartsNothing | zappy-vendor-backend/src/modules/events/events.service.ts:37-76 | A code issued for an id that casts to no event still verifies and answers "Event started", and no event changes. |
| OtpAuthority.SpellingsHoldSeparateCodes | zappy-vendor-backend/src/modules/events/events.service.ts:42-74 | Codes are keyed by the id string and events by the cast id. After codes are issued under two spellings of one event id, the first code still verifies and starts the event, and the second spelling keeps its code. |
| OtpAuthority.ForbiddenWhateverStatus | zappy-vendor-backend/src/modules/events/events.service.ts:88-92 | A non-owner gets Forbidden from both setup operations whatever the event's status. |
| OtpAuthority.PreSetupLastWriteWins | zappy-vendor-backend/src/modules/events/events.service.ts:94-96 | Pre-setup may be repeated, and the store ends as if only the last call had run. |
| OtpAuthority.PostSetupOnlyOnce | zappy-vendor-backend/src/modules/events/events.service.ts:107-121 | After completion both setup operations fail: BadRequest for the owner, Forbidden for anyone else. |
| OtpBody.FindOneUnder | zappy-vendor-backend/src/modules/events/events.service.ts:56-61 | `findOne` with the body value as given finds a record exactly when one has the id string, satisfies the code condition, is unverified and expires after now. |
| OtpBody.FindOneUnderText | zappy-vendor-backend/src/modules/events/events.service.ts:56-61 | For a string body the query is the code comparison `findOne` was written for. |
| OtpBody.VerifyOtpAsWritten | zappy-vendor-backend/src/modules/events/events.service.ts:55-77 | Verification as written succeeds exactly when some record under the id string meets the body's code condition, live and unexpired. Then it deletes every code under the string and starts the event the id casts to, exactly as `VerifyOtp` does. |
| OtpBody.AsWrittenOnText | zappy-vendor-backend/src/modules/events/events.service.ts:55-77 | On a string body the code as written behaves exactly as `VerifyOtp`. |
| OtpBody.AsWrittenPreservesInv | zappy-vendor-backend/src/modules/events/events.service.ts:55-77 | A successful verification as written, with any body, keeps the store consistent. |
| OtpBody.AsWrittenIgnoresSweep | zappy-vendor-backend/src/modules/events/events.service.ts:56-74 | For any body, verifying after a TTL pass at or before now gives the same outcome, and the same store up to that pass, as verifying without it. |
| OtpBody.AsWrittenSingleUse | zappy-vendor-backend/src/modules/events/events.service.ts:56-69 | After a successful verification as written no code is left under the id string, so any later verification with that string fails, operator bodies included. |
| OtpBody.OperatorBypassesCode | zappy-vendor-backend/src/modules/events/events.service.ts:56-65 | Right after any code is issued, the body `{"$ne": ""}` verifies without the code: it answers "Event started" and the event the id casts to becomes STARTED at now. |
| OtpBody.VerifyOtpChecked | zappy-vendor-backend/src/modules/events/events.service.ts:55-77 | The checked version succeeds exactly for a string body naming a live code, and agrees with the as-written version on strings. |
| OtpBody.CheckedRefusesOperators | zappy-vendor-backend/src/modules/events/events.service.ts:55-65 | With the body checked, an operator body fails with the wrong-code error whatever codes are live. |
| OtpBody.CheckedFreshCodeIff | zappy-vendor-backend/src/modules/events/events.service.ts:44-65 | With the check, right after a code is issued a body verifies exactly when it is that code as a string, before expiry. |
| Traces.HandlePreservesInv | zappy-vendor-backend/src/modules/events/events.service.ts:27-124 | Any single request keeps the store consistent, including a verification whose body is a query operator. |
| Traces.RunPreservesInv | zappy-vendor-backend/src/modules/events/events.service.ts:27-124 | Any sequence of requests with a non-decreasing clock keeps the store consistent. Bodies may carry query operators. |
| Traces.ReachableStoresConsistent | zappy-vendor-backend/src/modules/events/events.service.ts:27-124 | Every store reachable from an empty database with a non-decreasing clock is consistent and holds at most one code per id string. |
| Traces.HandleKeepsOrigin | zappy-vendor-backend/src/modules/events/events.service.ts:27-124 | No request deletes an event or rewrites its owner, location, check-in photo or check-in time. |
| Traces.RunKeepsOrigin | zappy-vendor-backend/src/modules/events/events.service.ts:27-124 | The same holds over any sequence of requests. |
| Traces.HandleNeverAddsCodes | zappy-vendor-backend/src/modules/events/events.service.ts:42-69 | Only issuing a code under an id string adds codes under it. |
| Traces.RunNeverAddsCodes | zappy-vendor-backend/src/modules/events/events.service.ts:42-69 | Over requests that issue no code under an id string, its set of codes only shrinks. |
| Traces.UnstoredStaysDead | zappy-vendor-backend/src/modules/events/events.service.ts:56-65 | A code not stored under an id string fails after any sequence of requests that issues no new code under it. |
| Traces.SupersededForever | zappy-vendor-backend/src/modules/events/events.service.ts:42-65 | A superseded code never verifies again until another code is issued under the id string. |
| Traces.ConsumedForever | zappy-vendor-backend/src/modules/events/events.service.ts:67-69 | After a successful verification no code verifies under the id string until another code is issued under it. |
| Traces.HappyPath | zappy-vendor-backend/src/modules/events/events.service.ts:27-124 | Check-in, send, verify with the returned code before expiry, pre-setup and post-setup each succeed, ending COMPLETED at the last step's time. |
| Traces.WrongCodeChangesNothing | zappy-vendor-backend/src/modules/events/events.service.ts:56-65 | A string code with no live record fails and leaves the store exactly as it was. |

## Left out

- The HTTP layer (`events.controller.ts`) is not part of this model. That covers route binding, the `x-vendor-id` header (the vendor id is a plain argument here) and the 5 MB upload limit.
- The frontend, the mock vendors module, the module wiring and the check-in DTO are not part of this model. The DTO's validators are not applied by the controller.
- Concurrency between the find, save and delete steps of `verifyOtp` is not modelled: each operation is one atomic transition.
- `Math.random` and `new Date()` are replaced by the `draw` and `now` parameters.
- Latitude and longitude are carried as opaque reals; no arithmetic is done on them.
- The ObjectId format is abstracted into the `isValid` and `cast` parameters.
- Uploaded file contents and storage are not modelled; only the original file name is kept, as an `Option`.
- `OtpExpiryMinutes` is a positive constant of unknown value, because the constants file is not part of this model.
- EventsService.CheckIn: latitude and longitude are taken as numbers, and check-in always succeeds here. Two Mongoose behaviours are not modelled:
  - Mongoose rejects a `vendorId` that is missing or empty (`required`), and a coordinate whose multipart string does not cast to Number.
  - A missing latitude or longitude is not rejected. `location` is always passed as an object, so `required` is met, and `lat`/`lng` are not required themselves. The event is stored without that coordinate.
- EventsService.PreSetup, EventsService.PostSetup: a malformed id makes `findById` throw a cast error (HTTP 500) in the source. Here `cast` is total, and such an id is answered like one that reaches no event, with NotFound.
- The `createdAt`/`updatedAt` fields added by `timestamps: true` are not modelled.
- EventsService.TtlSweep: MongoDB's TTL monitor runs about once a minute and removes documents once `expiresAt` is in the past. It is modelled as an explicit `Sweep` request at a chosen time that removes records expiring strictly before it; the real monitor's timing is not modelled.
- EventsService.VerifyOtp: the submitted code is a string. The controller passes the body's `otp` field to `findOne` unchecked, so a JSON object arrives as a query operator. That case is modelled once, in `OtpBody`, with `{"$ne": v}` standing for every operator (`$gt`, `$regex`, ...). `OtpAuthority.FreshCodeVerifiesIff` and the other `OtpAuthority` verification lemmas are about string codes. For any body, the TTL monitor's invisibility and single use are proved in `OtpBody.AsWrittenIgnoresSweep` and `OtpBody.AsWrittenSingleUse`, and the requests in `Traces` may carry either kind of body.

## Findings

| source | as written | input that shows it | evidently intended | confidence | as-written member | corrected member |
|---|---|---|---|---|---|---|
| zappy-vendor-backend/src/modules/events/events.service.ts:56-61 | The `otp` body field goes into `findOne` unchecked, so an operator object becomes a query condition on `code`. | `POST /events/<id>/verify-otp` with JSON body `{"otp": {"$ne": ""}}` while any code for `<id>` is live: the event starts without the code. | Only a string is compared with the stored code; any other body value is refused like a wrong code. | medium; not executed (relies on Mongoose's default of not sanitizing filters) | OtpBody.VerifyOtpAsWritten, OtpBody.OperatorBypassesCode | OtpBody.VerifyOtpChecked, OtpBody.CheckedFreshCodeIff |

=== FILE: decimal.dfy ===
/** Decimal rendering of the OTP number and its inverse, and the shape of a
    four-digit code. `Show` agrees with `Number.prototype.toString()` on the
    safe integers (below 2^53), which JavaScript holds exactly and writes in
    plain digits; the service only ever renders numbers in 1000..9999. */
module Decimal {

  /** The values `Math.floor(1000 + Math.random() * 9000)` can produce. */
  type FourDigit = n: int | 1000 <= n <= 9999 witness 1000

  predicate IsDigit(c: char) {
    '0' <= c <= '9'
  }

  predicate AllDigits(s: string) {
    forall i | 0 <= i < |s| :: IsDigit(s[i])
  }

  /** A rendering `toString` can produce: digits only, no leading zero
      unless the number is zero itself. */
  predicate Canonical(s: string) {
    && 1 <= |s|
    && AllDigits(s)
    && (s[0] == '0' ==> |s| == 1)
  }

  /** A code as the OTP authority issues it: four digits, the first non-zero. */
  predicate IsOtpCode(s: string) {
    |s| == 4 && Canonical(s)
  }

  function DigitValue(c: char): (d: nat)
    requires IsDigit(c)
    ensures d < 10
  {
    c as int - '0' as int
  }

  function DigitChar(d: nat): (c: char)
    requires d < 10
    ensures IsDigit(c) && DigitValue(c) == d
    ensures c == '0' <==> d == 0
  {
    (d + '0' as int) as char
  }

  function Pow10(k: nat): (p: nat)
    ensures p >= 1
  {
    if k == 0 then 1 else 10 * Pow10(k - 1)
  }

  /** Plain positional decimal notation of `n`: what `n.toString()` gives for
      a safe integer. Larger numbers are not held exactly by a JavaScript
      number, and from 10^21 on are written with an exponent; the service
      never renders them. */
  function Show(n: nat): (s: string)
    ensures Canonical(s)
    decreases n
  {
    if n < 10 then [DigitChar(n)]
    else
      var prefix := Show(n / 10);
      assert prefix[0] != '0';
      prefix + [DigitChar(n % 10)]
  }

  /** The number a string of digits denotes (most significant digit first). */
  function Parse(s: string): nat
    requires AllDigits(s)
    decreases |s|
  {
    if |s| == 0 then 0
    else Parse(s[..|s| - 1]) * 10 + DigitValue(s[|s| - 1])
  }

  /** Reading back what `Show` wrote gives the number. */
  lemma {:induction false} ParseShow(n: nat)
    ensures Parse(Show(n)) == n
    decreases n
  {
    var s := Show(n);
    if n >= 10 {
      assert s[..|s| - 1] == Show(n / 10);
      ParseShow(n / 10);
    }
  }

  /** A canonical string with a non-zero leading digit denotes a positive number. */
  lemma {:induction false} ParsePositive(s: string)
    requires 1 <= |s| && AllDigits(s) && s[0] != '0'
    ensures Parse(s) >= 1
    decreases |s|
  {
    if |s| > 1 {
      ParsePositive(s[..|s| - 1]);
    }
  }

  /** Writing out what `Parse` read from a canonical string gives the string. */
  lemma {:induction false} ShowParse(s: string)
    requires Canonical(s)
    ensures Show(Parse(s)) == s
    decreases |s|
  {
    if |s| > 1 {
      var prefix := s[..|s| - 1];
      ParsePositive(prefix);
      ShowParse(prefix);
      var n := Parse(s);
      assert n / 10 == Parse(prefix) && n % 10 == DigitValue(s[|s| - 1]);
      assert Show(n) == prefix + [s[|s| - 1]];
    }
  }

  /** The number a digit string of length k denotes lies below 10^k, and at
      or above 10^(k-1) when its first digit is not zero. */
  lemma {:induction false} ParseBounds(s: string)
    requires AllDigits(s)
    ensures Parse(s) < Pow10(|s|)
    ensures 1 <= |s| && s[0] != '0' ==> Pow10(|s| - 1) <= Parse(s)
    decreases |s|
  {
    if |s| > 0 {
      var prefix := s[..|s| - 1];
      ParseBounds(prefix);
      if |s| > 1 && s[0] != '0' {
        assert prefix[0] == s[0];
      }
    }
  }

  /** Distinct numbers render as distinct strings. */
  lemma ShowInjective(a: nat, b: nat)
    ensures Show(a) == Show(b) <==> a == b
  {
    if Show(a) == Show(b) {
      ParseShow(a);
      ParseShow(b);
    }
  }

  /** A string is an OTP code exactly when it renders a number in [1000, 9999]. */
  lemma OtpCodeIffFourDigit(s: string)
    ensures IsOtpCode(s) <==> exists n: FourDigit :: Show(n) == s
  {
    if IsOtpCode(s) {
      ParseBounds(s);
      ShowParse(s);
      var n: FourDigit := Parse(s);
      assert Show(n) == s;
    }
    if exists n: FourDigit :: Show(n) == s {
      var n: FourDigit :| Show(n) == s;
      FourDigitCode(n);
    }
  }

  /** Every four-digit number renders as an OTP code. */
  lemma FourDigitCode(n: FourDigit)
    ensures IsOtpCode(Show(n))
  {
    var s := Show(n);
    ParseShow(n);
    ParseBounds(s);
    if |s| > 4 {
      assert Pow10(4) <= Pow10(|s| - 1) by { Pow10Monotone(4, |s| - 1); }
    }
  }

  lemma {:induction false} Pow10Monotone(i: nat, j: nat)
    requires i <= j
    ensures Pow10(i) <= Pow10(j)
    decreases j
  {
    if i < j {
      Pow10Monotone(i, j - 1);
    }
  }
}

=== FILE: events_service.dfy ===
/** `EventsService`: the event lifecycle and the OTP authority. Each operation
    is a pure transition on the store. A raised exception is a `Failure`,
    and every failure leaves the store exactly as it was, so only a
    `Success` carries a new store. */
module EventsService {
  import opened Wrappers
  import opened Schemas
  import opened OtpStore
  import opened Decimal

  type Positive = n: nat | n > 0 witness 1

  /** `OTP_EXPIRY_MINUTES`. Its value is set in a constants file that is not
      part of this model, so it is left unknown here; nothing below depends
      on it beyond its being a positive number of minutes. */
  const OtpExpiryMinutes: Positive

  /** How long an issued code stays valid, in milliseconds. */
  const OtpLifetime: nat := OtpExpiryMinutes * 60000

  const InvalidEventIdMessage := "Invalid eventId"
  const InvalidOtpMessage := "Invalid or expired OTP"
  const UnauthorizedVendorMessage := "Unauthorized vendor"
  const OtpNotVerifiedMessage := "OTP not verified"
  const InvalidStateMessage := "Invalid event state"
  const OtpSentMessage := "OTP sent (mock)"
  const EventStartedMessage := "Event started"
  const PreSetupSavedMessage := "Pre-setup saved"
  const CompletedMessage := "Event completed successfully"

  /** The three HTTP exceptions the service raises. */
  datatype Error =
    | BadRequest(message: string)   // 400
    | NotFound                      // 404
    | Forbidden(message: string)    // 403

  /** Both collections: events by id, codes in insertion order. */
  datatype Store = Store(events: map<EventId, Event>, otps: seq<OtpRecord>)

  /** The store after a successful operation, and what the operation returned. */
  datatype Step<T> = Step(store: Store, reply: T)

  /** The check-in form fields the service reads. */
  datatype CheckInForm = CheckInForm(vendorId: string, latitude: Coord, longitude: Coord)

  /** The created document, with the id the store gave it. */
  datatype Created = Created(id: EventId, event: Event)

  datatype OtpReply = OtpReply(message: string, otp: string)

  /** `checkIn`: stores a new event in CHECKED_IN, stamped with `now`. `id` is
      the fresh ObjectId the store assigns to the new document. */
  function CheckIn(s: Store, id: EventId, form: CheckInForm, photo: Option<string>, now: Timestamp): (r: Step<Created>)
    requires id !in s.events
    ensures r.store.events.Keys == s.events.Keys + {id}
    ensures forall k | k in s.events :: r.store.events[k] == s.events[k]
    ensures r.store.otps == s.otps
    ensures r.reply.id == id && r.store.events[id] == r.reply.event
    ensures r.reply.event.status == CheckedIn && r.reply.event.checkedInAt == Some(now)
    ensures r.reply.event.vendorId == form.vendorId
    ensures r.reply.event.location == Location(form.latitude, form.longitude)
    ensures r.reply.event.checkInPhoto == photo
    ensures NotYetStarted(r.reply.event)
  {
    var e := CreateEvent(EventInput(
      vendorId := form.vendorId,
      status := Some(CheckedIn),
      location := Location(form.latitude, form.longitude),
      checkInPhoto := photo,
      checkedInAt := Some(now)));
    Step(Store(s.events[id := e], s.otps), Created(id, e))
  }

  /** `sendOtp`: rejects an ill-formed id; otherwise drops every code held for
      the event and stores one fresh code rendered from `draw`, the number the
      random generator produced. `isValid` is `Types.ObjectId.isValid`. The
      event itself need not exist. */
  function SendOtp(s: Store, isValid: string -> bool, eventId: EventId, draw: FourDigit, now: Timestamp)
    : (r: Result<Step<OtpReply>, Error>)
    ensures r.Failure? <==> !isValid(eventId)
    ensures r.Failure? ==> r.error == BadRequest(InvalidEventIdMessage)
    ensures r.Success? ==> r.value.store.events == s.events
    ensures r.Success? ==> r.value.reply.message == OtpSentMessage
    ensures r.Success? ==> IsOtpCode(r.value.reply.otp) && Parse(r.value.reply.otp) == draw
    ensures r.Success? ==>
      var issued := OtpRecord(eventId, r.value.reply.otp, false, now + OtpLifetime);
      forall x: OtpRecord | x.eventId == eventId :: multiset(r.value.store.otps)[x] == if x == issued then 1 else 0
    ensures r.Success? ==>
      forall x: OtpRecord | x.eventId != eventId :: multiset(r.value.store.otps)[x] == multiset(s.otps)[x]
  {
    if !isValid(eventId) then Failure(BadRequest(InvalidEventIdMessage))
    else
      var cleared := DeleteMany(s.otps, ForEvent(eventId));
      var code := Show(draw);
      var issued := CreateOtp(OtpInput(eventId, code, None, now + OtpLifetime));
      DeleteManyCounts(s.otps, ForEvent(eventId));
      FourDigitCode(draw);
      ParseShow(draw);
      assert multiset(cleared + [issued]) == multiset(cleared) + multiset{issued};
      Success(Step(Store(s.events, cleared + [issued]), OtpReply(OtpSentMessage, code)))
  }

  /** How `findById` and `findByIdAndUpdate` read an id string: the key of
      the event document it denotes. The cast goes through the ObjectId the
      string encodes, so several spellings (upper- and lower-case hex digits)
      reach one event, whereas the code collection keeps `eventId` as a plain
      string and compares it exactly. */
  type IdCast = string -> EventId

  /** What `verifyOtp` does once `findOne` has returned the record at `i`:
      marks it verified and saves it, deletes every code held under the id
      string, and moves the event the id casts to, if there is one, to
      STARTED without looking at its current status. */
  function Consume(s: Store, cast: IdCast, eventId: EventId, i: nat, now: Timestamp): (s': Store)
    requires i < |s.otps| && s.otps[i].eventId == eventId
    ensures s'.otps == DeleteMany(s.otps, ForEvent(eventId))
    ensures forall x :: multiset(s'.otps)[x] == if x.eventId == eventId then 0 else multiset(s.otps)[x]
    ensures s'.events.Keys == s.events.Keys
    ensures forall k | k in s.events && k != cast(eventId) :: s'.events[k] == s.events[k]
    ensures cast(eventId) in s.events ==>
      var e, e' := s.events[cast(eventId)], s'.events[cast(eventId)];
      && e'.status == Started
      && e'.startedAt == Some(now)
      && e'.(status := e.status, startedAt := e.startedAt) == e
  {
    var marked := s.otps[i := s.otps[i].(isVerified := true)];
    var remaining := DeleteMany(marked, ForEvent(eventId));
    var id := cast(eventId);
    var events :=
      if id in s.events
      then s.events[id := s.events[id].(status := Started, startedAt := Some(now))]
      else s.events;
    MarkThenDelete(s.otps, i);
    DeleteManyCounts(s.otps, ForEvent(eventId));
    Store(events, remaining)
  }

  /** Which live record `findOne` returns makes no difference: consuming
      any record held under the id string leaves the same store. */
  lemma ConsumeIgnoresWhichRecord(s: Store, cast: IdCast, eventId: EventId, i: nat, j: nat, now: Timestamp)
    requires i < |s.otps| && s.otps[i].eventId == eventId
    requires j < |s.otps| && s.otps[j].eventId == eventId
    ensures Consume(s, cast, eventId, i, now) == Consume(s, cast, eventId, j, now)
  {
    var a, b := Consume(s, cast, eventId, i, now), Consume(s, cast, eventId, j, now);
    if cast(eventId) in s.events {
      var e, ea, eb := s.events[cast(eventId)], a.events[cast(eventId)], b.events[cast(eventId)];
      assert ea == e.(status := Started, startedAt := Some(now)) == eb;
    }
    assert a.events == b.events;
  }

  /** `verifyOtp`: fails unless a stored code is live for this id string, code
      and time; on success consumes it as `Consume` describes. */
  function VerifyOtp(s: Store, cast: IdCast, eventId: EventId, code: string, now: Timestamp): (r: Result<Step<string>, Error>)
    ensures r.Success? <==> HasLive(s.otps, eventId, code, now)
    ensures r.Failure? ==> r.error == BadRequest(InvalidOtpMessage)
    ensures r.Success? ==> r.value.reply == EventStartedMessage
    ensures r.Success? ==>
      forall x :: multiset(r.value.store.otps)[x] == if x.eventId == eventId then 0 else multiset(s.otps)[x]
    ensures r.Success? ==> r.value.store.otps == DeleteMany(s.otps, ForEvent(eventId))
    ensures r.Success? ==> CodesFor(r.value.store.otps, eventId) == {}
    ensures r.Success? ==> r.value.store.events.Keys == s.events.Keys
    ensures r.Success? ==> forall k | k in s.events && k != cast(eventId) :: r.value.store.events[k] == s.events[k]
    ensures r.Success? && cast(eventId) in s.events ==>
      var e, e' := s.events[cast(eventId)], r.value.store.events[cast(eventId)];
      && e'.status == Started
      && e'.startedAt == Some(now)
      && e'.(status := e.status, startedAt := e.startedAt) == e
  {
    match FindOne(s.otps, eventId, code, now)
    case None => Failure(BadRequest(InvalidOtpMessage))
    case Some(i) => Success(Step(Consume(s, cast, eventId, i, now), EventStartedMessage))
  }

  /** `verifyVendor`: the caller's vendor id must equal the stored owner. */
  function VerifyVendor(e: Event, vendorId: string): (r: Outcome<Error>)
    ensures r.Pass? <==> e.vendorId == vendorId
    ensures r.Fail? ==> r.error == Forbidden(UnauthorizedVendorMessage)
  {
    if e.vendorId != vendorId then Fail(Forbidden(UnauthorizedVendorMessage)) else Pass
  }

  /** The checks `preSetup` and `postSetup` both make, in this order: the
      event the id casts to exists, the caller owns it, it is STARTED. The
      message of the last check differs between the two operations. */
  function SetupGuard(s: Store, cast: IdCast, eventId: EventId, vendorId: string, stateMessage: string): (r: Outcome<Error>)
    ensures cast(eventId) !in s.events ==> r == Fail(NotFound)
    ensures cast(eventId) in s.events && s.events[cast(eventId)].vendorId != vendorId ==>
      r == Fail(Forbidden(UnauthorizedVendorMessage))
    ensures cast(eventId) in s.events && s.events[cast(eventId)].vendorId == vendorId && s.events[cast(eventId)].status != Started ==>
      r == Fail(BadRequest(stateMessage))
    ensures r.Pass? <==>
      cast(eventId) in s.events && s.events[cast(eventId)].vendorId == vendorId && s.events[cast(eventId)].status == Started
  {
    if cast(eventId) !in s.events then Fail(NotFound)
    else
      var e := s.events[cast(eventId)];
      match VerifyVendor(e, vendorId)
      case Fail(err) => Fail(err)
      case Pass =>
        if e.status != Started then Fail(BadRequest(stateMessage)) else Pass
  }

  /** `preSetup`: once the guard passes, overwrites the pre-setup photo and
      notes; the status stays STARTED. */
  function PreSetup(s: Store, cast: IdCast, eventId: EventId, photo: Option<string>, notes: Option<string>, vendorId: string)
    : (r: Result<Step<string>, Error>)
    ensures r.Failure? <==> SetupGuard(s, cast, eventId, vendorId, OtpNotVerifiedMessage).Fail?
    ensures r.Failure? ==> r.error == SetupGuard(s, cast, eventId, vendorId, OtpNotVerifiedMessage).error
    ensures r.Success? ==> r.value.reply == PreSetupSavedMessage && r.value.store.otps == s.otps
    ensures r.Success? ==> r.value.store.events.Keys == s.events.Keys
    ensures r.Success? ==> forall k | k in s.events && k != cast(eventId) :: r.value.store.events[k] == s.events[k]
    ensures r.Success? ==>
      var e, e' := s.events[cast(eventId)], r.value.store.events[cast(eventId)];
      && e'.status == Started
      && e'.preSetupPhoto == photo
      && e'.preSetupNotes == notes
      && e'.(preSetupPhoto := e.preSetupPhoto, preSetupNotes := e.preSetupNotes) == e
  {
    match SetupGuard(s, cast, eventId, vendorId, OtpNotVerifiedMessage)
    case Fail(err) => Failure(err)
    case Pass =>
      var e := s.events[cast(eventId)];
      var e' := e.(preSetupPhoto := photo, preSetupNotes := notes);
      Success(Step(Store(s.events[cast(eventId) := e'], s.otps), PreSetupSavedMessage))
  }

  /** `postSetup`: once the guard passes, records the post-setup photo and
      notes and completes the event, stamping `completedAt`. */
  function PostSetup(s: Store, cast: IdCast, eventId: EventId, photo: Option<string>, notes: Option<string>, vendorId: string, now: Timestamp)
    : (r: Result<Step<string>, Error>)
    ensures r.Failure? <==> SetupGuard(s, cast, eventId, vendorId, InvalidStateMessage).Fail?
    ensures r.Failure? ==> r.error == SetupGuard(s, cast, eventId, vendorId, InvalidStateMessage).error
    ensures r.Success? ==> r.value.reply == CompletedMessage && r.value.store.otps == s.otps
    ensures r.Success? ==> r.value.store.events.Keys == s.events.Keys
    ensures r.Success? ==> forall k | k in s.events && k != cast(eventId) :: r.value.store.events[k] == s.events[k]
    ensures r.Success? ==>
      var e, e' := s.events[cast(eventId)], r.value.store.events[cast(eventId)];
      && e.status == Started
      && e'.status == Completed
      && e'.completedAt == Some(now)
      && e'.postSetupPhoto == photo
      && e'.postSetupNotes == notes
      && e'.(status := e.status, completedAt := e.completedAt,
             postSetupPhoto := e.postSetupPhoto, postSetupNotes := e.postSetupNotes) == e
  {
    match SetupGuard(s, cast, eventId, vendorId, InvalidStateMessage)
    case Fail(err) => Failure(err)
    case Pass =>
      var e := s.events[cast(eventId)];
      var e' := e.(postSetupPhoto := photo, postSetupNotes := notes,
                   status := Completed, completedAt := Some(now));
      Success(Step(Store(s.events[cast(eventId) := e'], s.otps), CompletedMessage))
  }

  /** One pass of the TTL monitor at time `at`: every code whose expiry lies
      before `at` is removed; events are untouched. */
  function TtlSweep(s: Store, at: Timestamp): (s': Store)
    ensures s'.events == s.events
    ensures forall x :: multiset(s'.otps)[x] == if x.expiresAt < at then 0 else multiset(s.otps)[x]
  {
    DeleteManyCounts(s.otps, ExpiredBefore(at));
    Store(s.events, DeleteMany(s.otps, ExpiredBefore(at)))
  }
}

=== FILE: lifecycle.dfy ===
/** The event state machine seen from outside: the status transition table
    the operations follow, and the consistency between status, timestamps and
    the setup fields that every operation preserves when time does not run
    backwards. */
module Lifecycle {
  import opened Wrappers
  import opened Schemas
  import opened OtpStore
  import opened Decimal
  import opened EventsService

  /** The operations that change an existing event's status or setup fields. */
  datatype Action = VerifyCode | SavePreSetup | SavePostSetup

  /** The transition table the service implements: `None` is a rejected
      transition. Verifying a code moves any status to STARTED, because
      `verifyOtp` never reads the status it overwrites. */
  function NextStatus(st: EventStatus, a: Action): Option<EventStatus> {
    match a
    case VerifyCode => Some(Started)
    case SavePreSetup => if st == Started then Some(Started) else None
    case SavePostSetup => if st == Started then Some(Completed) else None
  }

  /** For an existing event and its owner, each setup operation succeeds
      exactly when the table admits its action from the current status, and
      leaves the status the table names. */
  lemma SetupFollowsTable(s: Store, cast: IdCast, eventId: EventId, photo: Option<string>, notes: Option<string>, vendorId: string, now: Timestamp)
    requires cast(eventId) in s.events && s.events[cast(eventId)].vendorId == vendorId
    ensures var st := s.events[cast(eventId)].status;
      && (PreSetup(s, cast, eventId, photo, notes, vendorId).Success? <==> NextStatus(st, SavePreSetup).Some?)
      && (PostSetup(s, cast, eventId, photo, notes, vendorId, now).Success? <==> NextStatus(st, SavePostSetup).Some?)
    ensures PreSetup(s, cast, eventId, photo, notes, vendorId).Success? ==>
      PreSetup(s, cast, eventId, photo, notes, vendorId).value.store.events[cast(eventId)].status
        == NextStatus(s.events[cast(eventId)].status, SavePreSetup).value
    ensures PostSetup(s, cast, eventId, photo, notes, vendorId, now).Success? ==>
      PostSetup(s, cast, eventId, photo, notes, vendorId, now).value.store.events[cast(eventId)].status
        == NextStatus(s.events[cast(eventId)].status, SavePostSetup).value
  {
  }

  /** A successful verification leaves the event the id casts to, if it
      exists, in the status the table names for `VerifyCode`, whatever status
      it had. */
  lemma VerifyFollowsTable(s: Store, cast: IdCast, eventId: EventId, code: string, now: Timestamp)
    requires cast(eventId) in s.events && VerifyOtp(s, cast, eventId, code, now).Success?
    ensures NextStatus(s.events[cast(eventId)].status, VerifyCode).Some?
    ensures VerifyOtp(s, cast, eventId, code, now).value.store.events[cast(eventId)].status
         == NextStatus(s.events[cast(eventId)].status, VerifyCode).value
  {
  }

  /** How status, timestamps and setup fields of one event hang together,
      given that no operation has yet run later than `clock`. */
  predicate EventConsistent(e: Event, clock: Timestamp) {
    && e.checkedInAt.Some? && e.checkedInAt.value <= clock
    && (e.status == CheckedIn ==> NotYetStarted(e))
    && (e.status != CheckedIn ==> e.startedAt.Some? && e.checkedInAt.value <= e.startedAt.value <= clock)
    && (e.status == Completed ==> e.completedAt.Some? && e.startedAt.value <= e.completedAt.value)
    && (e.completedAt.Some? ==> e.completedAt.value <= clock)
    && (e.postSetupNotes.Some? || e.postSetupPhoto.Some? ==> e.completedAt.Some?)
  }

  /** What holds of the stored codes: each is a four-digit code, unverified,
      issued for a well-formed id no earlier than one lifetime before
      `clock`, and no id string has more than one. */
  predicate OtpsConsistent(otps: seq<OtpRecord>, clock: Timestamp, isValid: string -> bool) {
    && (forall r | r in otps :: IsOtpCode(r.code) && !r.isVerified && isValid(r.eventId))
    && (forall r | r in otps :: r.expiresAt <= clock + OtpLifetime)
    && (forall r | r in otps :: multiset(otps)[r] == 1)
    && (forall r, r' | r in otps && r' in otps && r.eventId == r'.eventId :: r == r')
  }

  /** The store invariant at time `clock`. */
  predicate Inv(s: Store, clock: Timestamp, isValid: string -> bool) {
    && (forall id | id in s.events :: EventConsistent(s.events[id], clock))
    && OtpsConsistent(s.otps, clock, isValid)
  }

  /** The empty store satisfies the invariant at any time. */
  lemma EmptyStoreInv(clock: Timestamp, isValid: string -> bool)
    ensures Inv(Store(map[], []), clock, isValid)
  {
  }

  /** The invariant survives the clock moving forward with no operation. */
  lemma InvLater(s: Store, clock: Timestamp, later: Timestamp, isValid: string -> bool)
    requires Inv(s, clock, isValid) && clock <= later
    ensures Inv(s, later, isValid)
  {
    forall id | id in s.events
      ensures EventConsistent(s.events[id], later)
    {
      assert EventConsistent(s.events[id], clock);
    }
  }

  /** At most one code is held under each id string. Codes are keyed by the
      string the caller sent, not by the event it casts to. */
  lemma AtMostOneCodePerId(s: Store, clock: Timestamp, isValid: string -> bool, eventId: EventId)
    requires Inv(s, clock, isValid)
    ensures |CodesFor(s.otps, eventId)| <= 1
  {
    var codes := CodesFor(s.otps, eventId);
    if codes != {} {
      var c :| c in codes;
      forall c' | c' in codes ensures c' == c {
        var r :| r in s.otps && r.eventId == eventId && r.code == c;
        var r' :| r' in s.otps && r'.eventId == eventId && r'.code == c';
      }
      assert codes == {c};
    }
  }

  lemma CheckInPreservesInv(s: Store, clock: Timestamp, isValid: string -> bool,
                            id: EventId, form: CheckInForm, photo: Option<string>, now: Timestamp)
    requires Inv(s, clock, isValid) && clock <= now && id !in s.events
    ensures Inv(CheckIn(s, id, form, photo, now).store, now, isValid)
  {
    InvLater(s, clock, now, isValid);
  }

  lemma SendOtpPreservesInv(s: Store, clock: Timestamp, isValid: string -> bool,
                            eventId: EventId, draw: FourDigit, now: Timestamp)
    requires Inv(s, clock, isValid) && clock <= now
    requires SendOtp(s, isValid, eventId, draw, now).Success?
    ensures Inv(SendOtp(s, isValid, eventId, draw, now).value.store, now, isValid)
  {
    InvLater(s, clock, now, isValid);
    var step := SendOtp(s, isValid, eventId, draw, now).value;
    var otps := step.store.otps;
    var issued := OtpRecord(eventId, step.reply.otp, false, now + OtpLifetime);
    assert multiset(otps)[issued] == 1;
    forall r | r in otps
      ensures r == issued || (r in s.otps && r.eventId != eventId)
    {
      if r.eventId != eventId {
        assert multiset(s.otps)[r] == multiset(otps)[r];
      }
    }
    forall r | r in otps ensures multiset(otps)[r] == 1 {
      if r != issued {
        assert multiset(s.otps)[r] == multiset(otps)[r];
      }
    }
  }

  lemma VerifyOtpPreservesInv(s: Store, clock: Timestamp, isValid: string -> bool, cast: IdCast,
                              eventId: EventId, code: string, now: Timestamp)
    requires Inv(s, clock, isValid) && clock <= now
    requires VerifyOtp(s, cast, eventId, code, now).Success?
    ensures Inv(VerifyOtp(s, cast, eventId, code, now).value.store, now, isValid)
  {
    InvLater(s, clock, now, isValid);
    var s' := VerifyOtp(s, cast, eventId, code, now).value.store;
    forall r | r in s'.otps
      ensures r in s.otps && multiset(s'.otps)[r] == multiset(s.otps)[r]
    {
    }
    forall id | id in s'.events
      ensures EventConsistent(s'.events[id], now)
    {
      assert EventConsistent(s.events[id], now);
    }
  }

  lemma PreSetupPreservesInv(s: Store, clock: Timestamp, isValid: string -> bool, cast: IdCast,
                             eventId: EventId, photo: Option<string>, notes: Option<string>, vendorId: string, now: Timestamp)
    requires Inv(s, clock, isValid) && clock <= now
    requires PreSetup(s, cast, eventId, photo, notes, vendorId).Success?
    ensures Inv(PreSetup(s, cast, eventId, photo, notes, vendorId).value.store, now, isValid)
  {
    InvLater(s, clock, now, isValid);
    var s' := PreSetup(s, cast, eventId, photo, notes, vendorId).value.store;
    forall id | id in s'.events
      ensures EventConsistent(s'.events[id], now)
    {
      assert EventConsistent(s.events[id], now);
    }
  }

  lemma PostSetupPreservesInv(s: Store, clock: Timestamp, isValid: string -> bool, cast: IdCast,
                              eventId: EventId, photo: Option<string>, notes: Option<string>, vendorId: string, now: Timestamp)
    requires Inv(s, clock, isValid) && clock <= now
    requires PostSetup(s, cast, eventId, photo, notes, vendorId, now).Success?
    ensures Inv(PostSetup(s, cast, eventId, photo, notes, vendorId, now).value.store, now, isValid)
  {
    InvLater(s, clock, now, isValid);
    var s' := PostSetup(s, cast, eventId, photo, notes, vendorId, now).value.store;
    forall id | id in s'.events
      ensures EventConsistent(s'.events[id], now)
    {
      assert EventConsistent(s.events[id], now);
    }
  }

  lemma TtlSweepPreservesInv(s: Store, clock: Timestamp, isValid: string -> bool, at: Timestamp)
    requires Inv(s, clock, isValid)
    ensures Inv(TtlSweep(s, at), clock, isValid)
  {
    var s' := TtlSweep(s, at);
    forall r | r in s'.otps
      ensures r in s.otps && multiset(s'.otps)[r] == multiset(s.otps)[r]
    {
      assert multiset(s'.otps)[r] > 0;
    }
  }

  /** Along check-in, verification and post-setup with a clock that never
      runs backwards, the three timestamps are those of the three steps, in
      order. */
  lemma TimestampsAlongHappyPath(s: Store, cast: IdCast, id: EventId, form: CheckInForm, photo: Option<string>,
                                 code: string, notes: Option<string>, t1: Timestamp, t2: Timestamp, t3: Timestamp)
    requires id !in s.events && cast(id) == id && t1 <= t2 <= t3
    requires var s1 := CheckIn(s, id, form, photo, t1).store;
      VerifyOtp(s1, cast, id, code, t2).Success?
    ensures var s1 := CheckIn(s, id, form, photo, t1).store;
      var s2 := VerifyOtp(s1, cast, id, code, t2).value.store;
      var r := PostSetup(s2, cast, id, None, notes, form.vendorId, t3);
      && r.Success?
      && var e := r.value.store.events[id];
      && e.status == Completed
      && e.checkedInAt == Some(t1) && e.startedAt == Some(t2) && e.completedAt == Some(t3)
      && e.checkedInAt.value <= e.startedAt.value <= e.completedAt.value
  {
  }
}

=== FILE: otp_authority.dfy ===
/** Properties of the OTP authority and of the setup guards, each relating
    two or more operations: only the latest code verifies, a code verifies
    once, a code dies with its lifetime, the TTL monitor changes nothing a
    verification can observe, and the setup operations' repeat behaviour. */
module OtpAuthority {
  import opened Wrappers
  import opened Schemas
  import opened OtpStore
  import opened Decimal
  import opened EventsService

  /** Right after `sendOtp` stored code `c` at time `t`, a verification for
      the same id string succeeds exactly for `c`, and only before `t` plus the
      code's lifetime. */
  lemma FreshCodeVerifiesIff(s: Store, isValid: string -> bool, cast: IdCast, eventId: EventId, draw: FourDigit,
                             t: Timestamp, code: string, now: Timestamp)
    requires SendOtp(s, isValid, eventId, draw, t).Success?
    ensures var sent := SendOtp(s, isValid, eventId, draw, t).value;
      (VerifyOtp(sent.store, cast, eventId, code, now).Success? <==> code == sent.reply.otp && now < t + OtpLifetime)
  {
    var sent := SendOtp(s, isValid, eventId, draw, t).value;
    var issued := OtpRecord(eventId, sent.reply.otp, false, t + OtpLifetime);
    var otps := sent.store.otps;
    assert multiset(otps)[issued] == 1;
    assert issued in otps;
    if HasLive(otps, eventId, code, now) {
      var r :| r in otps && Live(r, eventId, code, now);
      assert multiset(otps)[r] > 0;
      assert r == issued;
    } else {
      assert !Live(issued, eventId, code, now);
    }
  }

  /** Two draws give two different codes exactly when they are different numbers. */
  lemma CodesDifferIffDrawsDiffer(s: Store, isValid: string -> bool, eventId: EventId,
                                  d1: FourDigit, t1: Timestamp, d2: FourDigit, t2: Timestamp)
    requires SendOtp(s, isValid, eventId, d1, t1).Success?
    ensures SendOtp(s, isValid, eventId, d1, t1).value.reply.otp == SendOtp(s, isValid, eventId, d2, t2).value.reply.otp
        <==> d1 == d2
  {
    ShowInjective(d1, d2);
  }

  /** Supersession: once a second code has been issued under the same id
      string, the first one fails, with the same generic error as any wrong
      code, unless the random draw happened to repeat it. */
  lemma Supersession(s: Store, isValid: string -> bool, cast: IdCast, eventId: EventId,
                     d1: FourDigit, t1: Timestamp, d2: FourDigit, t2: Timestamp, now: Timestamp)
    requires SendOtp(s, isValid, eventId, d1, t1).Success?
    requires d1 != d2
    ensures var first := SendOtp(s, isValid, eventId, d1, t1).value;
      var second := SendOtp(first.store, isValid, eventId, d2, t2).value;
      && first.reply.otp != second.reply.otp
      && VerifyOtp(second.store, cast, eventId, first.reply.otp, now) == Failure(BadRequest(InvalidOtpMessage))
  {
    var first := SendOtp(s, isValid, eventId, d1, t1).value;
    ShowInjective(d1, d2);
    FreshCodeVerifiesIff(first.store, isValid, cast, eventId, d2, t2, first.reply.otp, now);
  }

  /** Expiry: a code submitted once its lifetime has elapsed fails, even if
      it was never used. */
  lemma ExpiredCodeFails(s: Store, isValid: string -> bool, cast: IdCast, eventId: EventId, draw: FourDigit,
                         t: Timestamp, now: Timestamp)
    requires SendOtp(s, isValid, eventId, draw, t).Success?
    requires now >= t + OtpLifetime
    ensures var sent := SendOtp(s, isValid, eventId, draw, t).value;
      VerifyOtp(sent.store, cast, eventId, sent.reply.otp, now) == Failure(BadRequest(InvalidOtpMessage))
  {
    var sent := SendOtp(s, isValid, eventId, draw, t).value;
    FreshCodeVerifiesIff(s, isValid, cast, eventId, draw, t, sent.reply.otp, now);
  }

  /** Single use: after a successful verification no code at all is left
      under the id string, so repeating the verification with that string,
      with the same code or any other, at any time, fails. */
  lemma SingleUse(s: Store, cast: IdCast, eventId: EventId, code: string, now: Timestamp, code': string, later: Timestamp)
    requires VerifyOtp(s, cast, eventId, code, now).Success?
    ensures var s' := VerifyOtp(s, cast, eventId, code, now).value.store;
      VerifyOtp(s', cast, eventId, code', later) == Failure(BadRequest(InvalidOtpMessage))
  {
    var s' := VerifyOtp(s, cast, eventId, code, now).value.store;
    LiveCodeIsStored(s'.otps, eventId, code', later);
  }

  /** A verification outcome with the TTL monitor's pass applied to the
      resulting store. */
  function SweepOutcome(r: Result<Step<string>, Error>, at: Timestamp): Result<Step<string>, Error> {
    match r
    case Failure(e) => Failure(e)
    case Success(step) => Success(Step(TtlSweep(step.store, at), step.reply))
  }

  /** The TTL monitor only removes codes that a verification at a later time
      would reject anyway: verifying after a pass at `at <= now` returns the
      same outcome, and the same store up to that pass, as verifying without
      it. */
  lemma VerifyIgnoresSweep(s: Store, cast: IdCast, at: Timestamp, eventId: EventId, code: string, now: Timestamp)
    requires at <= now
    ensures VerifyOtp(TtlSweep(s, at), cast, eventId, code, now) == SweepOutcome(VerifyOtp(s, cast, eventId, code, now), at)
  {
    SweepKeepsLive(s.otps, at, eventId, code, now);
    if HasLive(s.otps, eventId, code, now) {
      DeleteManyCommutes(s.otps, ExpiredBefore(at), ForEvent(eventId));
    }
  }

  /** `verifyOtp` does not look at the event's status: a live code moves a
      COMPLETED event back to STARTED and re-stamps `startedAt`, so the start
      can end up later than the completion it follows. */
  lemma CompletedEventRestarts(s: Store, isValid: string -> bool, cast: IdCast, eventId: EventId, draw: FourDigit,
                               t: Timestamp, now: Timestamp, completed: Timestamp)
    requires cast(eventId) in s.events && s.events[cast(eventId)].status == Completed
    requires s.events[cast(eventId)].completedAt == Some(completed) && completed < now
    requires isValid(eventId) && t <= now < t + OtpLifetime
    ensures var sent := SendOtp(s, isValid, eventId, draw, t).value;
      var r := VerifyOtp(sent.store, cast, eventId, sent.reply.otp, now);
      && r.Success?
      && r.value.store.events[cast(eventId)].status == Started
      && r.value.store.events[cast(eventId)].startedAt == Some(now)
      && r.value.store.events[cast(eventId)].completedAt == Some(completed)
      && completed < now
  {
    var sent := SendOtp(s, isValid, eventId, draw, t).value;
    FreshCodeVerifiesIff(s, isValid, cast, eventId, draw, t, sent.reply.otp, now);
  }

  /** `sendOtp` does not ask whether the event exists, and the update in
      `verifyOtp` is a no-op when the id casts to no event: a code issued
      for such an id still verifies, reports "Event started", and changes no
      event. */
  lemma OrphanCodeStartsNothing(s: Store, isValid: string -> bool, cast: IdCast, eventId: EventId, draw: FourDigit,
                                t: Timestamp, now: Timestamp)
    requires cast(eventId) !in s.events
    requires isValid(eventId) && t <= now < t + OtpLifetime
    ensures var sent := SendOtp(s, isValid, eventId, draw, t).value;
      var r := VerifyOtp(sent.store, cast, eventId, sent.reply.otp, now);
      && r.Success?
      && r.value.reply == EventStartedMessage
      && r.value.store.events == s.events
  {
    var sent := SendOtp(s, isValid, eventId, draw, t).value;
    FreshCodeVerifiesIff(s, isValid, cast, eventId, draw, t, sent.reply.otp, now);
    var r := VerifyOtp(sent.store, cast, eventId, sent.reply.otp, now);
    assert r.value.store.events.Keys == s.events.Keys;
  }

  /** Two spellings of one event's id (say, upper- and lower-case hex) hold
      codes side by side: issuing a code under the second spelling does not
      supersede the code issued under the first, that first code still
      starts the event, and the second spelling keeps its own code. */
  lemma SpellingsHoldSeparateCodes(s: Store, isValid: string -> bool, cast: IdCast, a: EventId, b: EventId,
                                   d1: FourDigit, t1: Timestamp, d2: FourDigit, t2: Timestamp, now: Timestamp)
    requires a != b && cast(a) == cast(b) && cast(a) in s.events
    requires isValid(a) && isValid(b) && t1 <= now < t1 + OtpLifetime
    ensures var first := SendOtp(s, isValid, a, d1, t1).value;
      var second := SendOtp(first.store, isValid, b, d2, t2).value;
      var r := VerifyOtp(second.store, cast, a, first.reply.otp, now);
      && r.Success?
      && r.value.store.events[cast(b)].status == Started
      && CodesFor(r.value.store.otps, b) == CodesFor(second.store.otps, b)
      && second.reply.otp in CodesFor(r.value.store.otps, b)
  {
    var first := SendOtp(s, isValid, a, d1, t1).value;
    var second := SendOtp(first.store, isValid, b, d2, t2).value;
    var issued := OtpRecord(a, first.reply.otp, false, t1 + OtpLifetime);
    assert multiset(second.store.otps)[issued] == 1 by {
      assert multiset(first.store.otps)[issued] == 1;
    }
    assert HasLive(second.store.otps, a, first.reply.otp, now) by {
      assert issued in second.store.otps && Live(issued, a, first.reply.otp, now);
    }
    var r := VerifyOtp(second.store, cast, a, first.reply.otp, now);
    var mine := OtpRecord(b, second.reply.otp, false, t2 + OtpLifetime);
    assert mine in r.value.store.otps by {
      assert multiset(r.value.store.otps)[mine] == multiset(second.store.otps)[mine] == 1;
    }
    CodesForAgree(r.value.store.otps, second.store.otps, b);
  }

  /** Ownership is checked before status: a caller who is not the owner gets
      Forbidden from both setup operations, whatever status the event is in. */
  lemma ForbiddenWhateverStatus(s: Store, cast: IdCast, eventId: EventId, st: EventStatus, photo: Option<string>,
                                notes: Option<string>, vendorId: string, now: Timestamp)
    requires cast(eventId) in s.events && s.events[cast(eventId)].vendorId != vendorId
    ensures var s' := s.(events := s.events[cast(eventId) := s.events[cast(eventId)].(status := st)]);
      && PreSetup(s', cast, eventId, photo, notes, vendorId) == Failure(Forbidden(UnauthorizedVendorMessage))
      && PostSetup(s', cast, eventId, photo, notes, vendorId, now) == Failure(Forbidden(UnauthorizedVendorMessage))
  {
  }

  /** Pre-setup may be repeated: a second call succeeds as well, and the
      store ends as if only the second call had run. */
  lemma PreSetupLastWriteWins(s: Store, cast: IdCast, eventId: EventId, vendorId: string,
                              p1: Option<string>, n1: Option<string>, p2: Option<string>, n2: Option<string>)
    requires PreSetup(s, cast, eventId, p1, n1, vendorId).Success?
    ensures var s1 := PreSetup(s, cast, eventId, p1, n1, vendorId).value.store;
      PreSetup(s1, cast, eventId, p2, n2, vendorId) == PreSetup(s, cast, eventId, p2, n2, vendorId)
  {
    var s1 := PreSetup(s, cast, eventId, p1, n1, vendorId).value.store;
    var id := cast(eventId);
    var e := s.events[id];
    assert s1.events[id] == e.(preSetupPhoto := p1, preSetupNotes := n1);
    assert s1.events[id := e.(preSetupPhoto := p2, preSetupNotes := n2)]
        == s.events[id := e.(preSetupPhoto := p2, preSetupNotes := n2)];
  }

  /** Post-setup completes an event once: afterwards both setup operations
      fail for it, Forbidden for another vendor and BadRequest for the owner. */
  lemma PostSetupOnlyOnce(s: Store, cast: IdCast, eventId: EventId, vendorId: string, photo: Option<string>, notes: Option<string>,
                          now: Timestamp, vendorId': string, photo': Option<string>, notes': Option<string>, later: Timestamp)
    requires PostSetup(s, cast, eventId, photo, notes, vendorId, now).Success?
    ensures var s' := PostSetup(s, cast, eventId, photo, notes, vendorId, now).value.store;
      && PostSetup(s', cast, eventId, photo', notes', vendorId', later)
           == Failure(if vendorId' == vendorId then BadRequest(InvalidStateMessage) else Forbidden(UnauthorizedVendorMessage))
      && PreSetup(s', cast, eventId, photo', notes', vendorId')
           == Failure(if vendorId' == vendorId then BadRequest(OtpNotVerifiedMessage) else Forbidden(UnauthorizedVendorMessage))
  {
  }
}

=== FILE: otp_body.dfy ===
/** What the `otp` field of a verify-otp request body can hold once the JSON
    body is parsed, and what `verifyOtp` does with it. The field is passed to
    `findOne` unchecked, so besides a string it can be an object that the
    query reads as an operator on `code`; `{"$ne": v}` stands here for all of
    them. */
module OtpBody {
  import opened Wrappers
  import opened Schemas
  import opened OtpStore
  import opened Decimal
  import opened EventsService
  import opened Lifecycle
  import opened OtpAuthority

  /** A string, or the operator object `{"$ne": operand}`. */
  datatype BodyValue = Text(text: string) | NotEqual(operand: string)

  /** The condition the query puts on a record's `code` for a body value. */
  predicate CodeMatches(otp: BodyValue, code: string) {
    match otp
    case Text(t) => code == t
    case NotEqual(v) => code != v
  }

  /** The `findOne` conditions with the body value in place of the code. */
  predicate LiveUnder(r: OtpRecord, eventId: EventId, otp: BodyValue, now: Timestamp) {
    && r.eventId == eventId
    && CodeMatches(otp, r.code)
    && !r.isVerified
    && r.expiresAt > now
  }

  predicate HasLiveUnder(otps: seq<OtpRecord>, eventId: EventId, otp: BodyValue, now: Timestamp) {
    exists r | r in otps :: LiveUnder(r, eventId, otp, now)
  }

  /** `findOne` with the body value as given: the position of the first
      record meeting the conditions, if any. */
  function FindOneUnder(otps: seq<OtpRecord>, eventId: EventId, otp: BodyValue, now: Timestamp): (r: Option<nat>)
    ensures r.None? <==> !HasLiveUnder(otps, eventId, otp, now)
    ensures r.Some? ==> r.value < |otps| && LiveUnder(otps[r.value], eventId, otp, now)
    decreases |otps|
  {
    if otps == [] then None
    else if LiveUnder(otps[0], eventId, otp, now) then Some(0)
    else
      assert forall x | x in otps :: x == otps[0] || x in otps[1..];
      match FindOneUnder(otps[1..], eventId, otp, now)
      case None => None
      case Some(k) => Some(k + 1)
  }

  /** For a string, the query is the one `verifyOtp` was written for. */
  lemma {:induction false} FindOneUnderText(otps: seq<OtpRecord>, eventId: EventId, code: string, now: Timestamp)
    ensures FindOneUnder(otps, eventId, Text(code), now) == FindOne(otps, eventId, code, now)
    decreases |otps|
  {
    if otps != [] && !Live(otps[0], eventId, code, now) {
      FindOneUnderText(otps[1..], eventId, code, now);
    }
  }

  /** `verifyOtp` as written: whatever the body holds goes into `findOne`. */
  function VerifyOtpAsWritten(s: Store, cast: IdCast, eventId: EventId, otp: BodyValue, now: Timestamp)
    : (r: Result<Step<string>, Error>)
    ensures r.Success? <==> HasLiveUnder(s.otps, eventId, otp, now)
    ensures r.Failure? ==> r.error == BadRequest(InvalidOtpMessage)
    ensures r.Success? ==> r.value.reply == EventStartedMessage
    ensures r.Success? ==> r.value.store.otps == DeleteMany(s.otps, ForEvent(eventId))
    ensures r.Success? ==>
      forall x :: multiset(r.value.store.otps)[x] == if x.eventId == eventId then 0 else multiset(s.otps)[x]
    ensures r.Success? ==> r.value.store.events.Keys == s.events.Keys
    ensures r.Success? ==> forall k | k in s.events && k != cast(eventId) :: r.value.store.events[k] == s.events[k]
    ensures r.Success? && cast(eventId) in s.events ==>
      var e, e' := s.events[cast(eventId)], r.value.store.events[cast(eventId)];
      && e'.status == Started
      && e'.startedAt == Some(now)
      && e'.(status := e.status, startedAt := e.startedAt) == e
  {
    match FindOneUnder(s.otps, eventId, otp, now)
    case None => Failure(BadRequest(InvalidOtpMessage))
    case Some(i) => Success(Step(Consume(s, cast, eventId, i, now), EventStartedMessage))
  }

  /** On a string body the code as written is exactly `VerifyOtp`. */
  lemma AsWrittenOnText(s: Store, cast: IdCast, eventId: EventId, code: string, now: Timestamp)
    ensures VerifyOtpAsWritten(s, cast, eventId, Text(code), now) == VerifyOtp(s, cast, eventId, code, now)
  {
    FindOneUnderText(s.otps, eventId, code, now);
  }

  /** Verification as written keeps the store consistent, whatever the body
      holds: it only deletes codes and starts an event. */
  lemma AsWrittenPreservesInv(s: Store, clock: Timestamp, isValid: string -> bool, cast: IdCast,
                              eventId: EventId, otp: BodyValue, now: Timestamp)
    requires Inv(s, clock, isValid) && clock <= now
    requires VerifyOtpAsWritten(s, cast, eventId, otp, now).Success?
    ensures Inv(VerifyOtpAsWritten(s, cast, eventId, otp, now).value.store, now, isValid)
  {
    InvLater(s, clock, now, isValid);
    var s' := VerifyOtpAsWritten(s, cast, eventId, otp, now).value.store;
    forall r | r in s'.otps
      ensures r in s.otps && multiset(s'.otps)[r] == multiset(s.otps)[r]
    {
      assert multiset(s'.otps)[r] > 0;
    }
    forall id | id in s'.events
      ensures EventConsistent(s'.events[id], now)
    {
      assert EventConsistent(s.events[id], now);
    }
  }

  /** Consuming a code changes the events the same way in any two stores
      with the same events, whichever record each consumes. */
  lemma ConsumeEventsAgree(s1: Store, s2: Store, cast: IdCast, eventId: EventId, i: nat, j: nat, now: Timestamp)
    requires s1.events == s2.events
    requires i < |s1.otps| && s1.otps[i].eventId == eventId
    requires j < |s2.otps| && s2.otps[j].eventId == eventId
    ensures Consume(s1, cast, eventId, i, now).events == Consume(s2, cast, eventId, j, now).events
  {
    var a, b := Consume(s1, cast, eventId, i, now), Consume(s2, cast, eventId, j, now);
    if cast(eventId) in s1.events {
      var e := s1.events[cast(eventId)];
      assert a.events[cast(eventId)] == e.(status := Started, startedAt := Some(now)) == b.events[cast(eventId)];
    }
  }

  /** The TTL monitor makes no difference to verification as written,
      whatever the body holds: after a pass at `at <= now` the outcome is
      the same, and the store the same up to that pass. */
  lemma AsWrittenIgnoresSweep(s: Store, cast: IdCast, at: Timestamp, eventId: EventId, otp: BodyValue, now: Timestamp)
    requires at <= now
    ensures VerifyOtpAsWritten(TtlSweep(s, at), cast, eventId, otp, now)
         == SweepOutcome(VerifyOtpAsWritten(s, cast, eventId, otp, now), at)
  {
    var swept := TtlSweep(s, at);
    if HasLiveUnder(s.otps, eventId, otp, now) {
      var r :| r in s.otps && LiveUnder(r, eventId, otp, now);
      assert r in swept.otps by {
        assert multiset(swept.otps)[r] == multiset(s.otps)[r] > 0;
      }
      var i := FindOneUnder(s.otps, eventId, otp, now).value;
      var j := FindOneUnder(swept.otps, eventId, otp, now).value;
      var direct := Consume(s, cast, eventId, i, now);
      var after := Consume(swept, cast, eventId, j, now);
      assert after.otps == TtlSweep(direct, at).otps by {
        DeleteManyCommutes(s.otps, ExpiredBefore(at), ForEvent(eventId));
      }
      ConsumeEventsAgree(swept, s, cast, eventId, j, i, now);
      assert after == TtlSweep(direct, at);
    } else {
      assert !HasLiveUnder(swept.otps, eventId, otp, now) by {
        forall r | r in swept.otps ensures !LiveUnder(r, eventId, otp, now) {
          assert multiset(swept.otps)[r] > 0;
        }
      }
    }
  }

  /** Single use, whatever the bodies: after a successful verification as
      written no code is left under the id string, so any later
      verification with that string fails, even one with an operator body. */
  lemma AsWrittenSingleUse(s: Store, cast: IdCast, eventId: EventId, otp: BodyValue, now: Timestamp,
                           otp': BodyValue, later: Timestamp)
    requires VerifyOtpAsWritten(s, cast, eventId, otp, now).Success?
    ensures var s' := VerifyOtpAsWritten(s, cast, eventId, otp, now).value.store;
      VerifyOtpAsWritten(s', cast, eventId, otp', later) == Failure(BadRequest(InvalidOtpMessage))
  {
    var s' := VerifyOtpAsWritten(s, cast, eventId, otp, now).value.store;
    forall r | r in s'.otps ensures r.eventId != eventId {
      assert multiset(s'.otps)[r] > 0;
    }
  }

  /** The operator body `{"$ne": ""}` verifies without knowing the code: right
      after any code is issued, it answers "Event started" and starts the
      event the id casts to, whatever the draw was. */
  lemma OperatorBypassesCode(s: Store, isValid: string -> bool, cast: IdCast, eventId: EventId,
                             draw: FourDigit, t: Timestamp, now: Timestamp)
    requires isValid(eventId) && t <= now < t + OtpLifetime
    ensures var sent := SendOtp(s, isValid, eventId, draw, t).value;
      var r := VerifyOtpAsWritten(sent.store, cast, eventId, NotEqual(""), now);
      && r.Success?
      && r.value.reply == EventStartedMessage
      && (cast(eventId) in s.events ==>
            && r.value.store.events[cast(eventId)].status == Started
            && r.value.store.events[cast(eventId)].startedAt == Some(now))
  {
    var sent := SendOtp(s, isValid, eventId, draw, t).value;
    var issued := OtpRecord(eventId, sent.reply.otp, false, t + OtpLifetime);
    assert multiset(sent.store.otps)[issued] == 1;
    assert issued in sent.store.otps && LiveUnder(issued, eventId, NotEqual(""), now);
  }

  /** `verifyOtp` with the body checked first: only a string is compared with
      the stored codes; anything else is refused like a wrong code. */
  function VerifyOtpChecked(s: Store, cast: IdCast, eventId: EventId, otp: BodyValue, now: Timestamp)
    : (r: Result<Step<string>, Error>)
    ensures r.Success? <==> otp.Text? && HasLive(s.otps, eventId, otp.text, now)
    ensures r.Failure? ==> r.error == BadRequest(InvalidOtpMessage)
    ensures otp.Text? ==> r == VerifyOtpAsWritten(s, cast, eventId, otp, now)
  {
    match otp
    case NotEqual(_) => Failure(BadRequest(InvalidOtpMessage))
    case Text(code) =>
      AsWrittenOnText(s, cast, eventId, code, now);
      VerifyOtp(s, cast, eventId, code, now)
  }

  /** With the check in place a body that is not a string is refused with
      the wrong-code error, whatever codes are live, so it changes nothing. */
  lemma CheckedRefusesOperators(s: Store, cast: IdCast, eventId: EventId, v: string, now: Timestamp)
    ensures VerifyOtpChecked(s, cast, eventId, NotEqual(v), now) == Failure(BadRequest(InvalidOtpMessage))
  {
  }

  /** With the check in place, right after a code is issued a body verifies
      exactly when it is that code, as a string, before the code expires. */
  lemma CheckedFreshCodeIff(s: Store, isValid: string -> bool, cast: IdCast, eventId: EventId,
                            draw: FourDigit, t: Timestamp, otp: BodyValue, now: Timestamp)
    requires isValid(eventId)
    ensures var sent := SendOtp(s, isValid, eventId, draw, t).value;
      (VerifyOtpChecked(sent.store, cast, eventId, otp, now).Success?
       <==> (otp == Text(sent.reply.otp) && now < t + OtpLifetime))
  {
    if otp.Text? {
      FreshCodeVerifiesIff(s, isValid, cast, eventId, draw, t, otp.text, now);
    }
  }
}

=== FILE: otp_store.dfy ===
/** The OTP collection as the service queries it: `deleteMany` with a filter,
    `findOne` for a live code, and the time-to-live monitor that removes
    expired codes in the background. Records are kept in insertion order,
    and `findOne` here returns the first match in that order; MongoDB's
    natural order need not be insertion order, but `verifyOtp`'s outcome
    does not depend on which match it gets. */
module OtpStore {
  import opened Wrappers
  import opened Schemas

  /** The filters the service and the TTL index apply to the collection. */
  datatype Query =
    | ForEvent(eventId: EventId)        // { eventId }
    | ExpiredBefore(cutoff: Timestamp)  // what the TTL monitor removes at `cutoff`

  predicate Hits(q: Query, r: OtpRecord) {
    match q
    case ForEvent(id) => r.eventId == id
    case ExpiredBefore(t) => r.expiresAt < t
  }

  /** `deleteMany(q)`: the records that do not hit `q`, in their original order. */
  function DeleteMany(otps: seq<OtpRecord>, q: Query): (kept: seq<OtpRecord>)
    ensures |kept| <= |otps|
    decreases |otps|
  {
    if otps == [] then []
    else (if Hits(q, otps[0]) then [] else [otps[0]]) + DeleteMany(otps[1..], q)
  }

  /** `deleteMany(q)` removes every copy of each record that hits `q` and
      keeps every copy of each record that does not. */
  lemma {:induction false} DeleteManyCounts(otps: seq<OtpRecord>, q: Query)
    ensures forall r :: multiset(DeleteMany(otps, q))[r] == if Hits(q, r) then 0 else multiset(otps)[r]
    ensures forall r :: r in DeleteMany(otps, q) <==> r in otps && !Hits(q, r)
    decreases |otps|
  {
    if otps != [] {
      DeleteManyCounts(otps[1..], q);
      assert otps == [otps[0]] + otps[1..];
      var head := if Hits(q, otps[0]) then [] else [otps[0]];
      assert DeleteMany(otps, q) == head + DeleteMany(otps[1..], q);
      assert multiset(DeleteMany(otps, q)) == multiset(head) + multiset(DeleteMany(otps[1..], q));
      forall r ensures r in DeleteMany(otps, q) <==> multiset(DeleteMany(otps, q))[r] > 0 {}
      forall r ensures r in otps <==> multiset(otps)[r] > 0 {}
    }
  }

  /** The conditions `verifyOtp` passes to `findOne`: same event id, same
      code, not yet verified, expiry strictly after `now`. */
  predicate Live(r: OtpRecord, eventId: EventId, code: string, now: Timestamp) {
    && r.eventId == eventId
    && r.code == code
    && !r.isVerified
    && r.expiresAt > now
  }

  /** Whether any record satisfies the `findOne` conditions. */
  predicate HasLive(otps: seq<OtpRecord>, eventId: EventId, code: string, now: Timestamp) {
    exists r | r in otps :: Live(r, eventId, code, now)
  }

  /** `findOne`: the position of the first live record, if any. */
  function FindOne(otps: seq<OtpRecord>, eventId: EventId, code: string, now: Timestamp): (r: Option<nat>)
    ensures r.None? <==> !HasLive(otps, eventId, code, now)
    ensures r.Some? ==> r.value < |otps| && Live(otps[r.value], eventId, code, now)
    ensures r.Some? ==> forall j | 0 <= j < r.value :: !Live(otps[j], eventId, code, now)
    decreases |otps|
  {
    if otps == [] then None
    else if Live(otps[0], eventId, code, now) then Some(0)
    else
      assert forall x | x in otps :: x == otps[0] || x in otps[1..];
      match FindOne(otps[1..], eventId, code, now)
      case None => None
      case Some(k) => Some(k + 1)
  }

  /** The codes currently stored for one event. */
  function CodesFor(otps: seq<OtpRecord>, eventId: EventId): (codes: set<string>)
    ensures forall c :: c in codes <==> exists r | r in otps :: r.eventId == eventId && r.code == c
  {
    set r | r in otps && r.eventId == eventId :: r.code
  }

  /** Two collections holding the same records for an id, each as often,
      hold the same codes for it. */
  lemma CodesForAgree(o1: seq<OtpRecord>, o2: seq<OtpRecord>, eventId: EventId)
    requires forall x: OtpRecord | x.eventId == eventId :: multiset(o1)[x] == multiset(o2)[x]
    ensures CodesFor(o1, eventId) == CodesFor(o2, eventId)
  {
    forall c | c in CodesFor(o1, eventId) ensures c in CodesFor(o2, eventId) {
      var x :| x in o1 && x.eventId == eventId && x.code == c;
      assert multiset(o1)[x] > 0;
    }
    forall c | c in CodesFor(o2, eventId) ensures c in CodesFor(o1, eventId) {
      var x :| x in o2 && x.eventId == eventId && x.code == c;
      assert multiset(o2)[x] > 0;
    }
  }

  /** A record is live only for a code stored for its event. */
  lemma LiveCodeIsStored(otps: seq<OtpRecord>, eventId: EventId, code: string, now: Timestamp)
    ensures HasLive(otps, eventId, code, now) ==> code in CodesFor(otps, eventId)
  {
    if HasLive(otps, eventId, code, now) {
      var r :| r in otps && Live(r, eventId, code, now);
    }
  }

  /** Deleting distributes over appending. */
  lemma {:induction false} DeleteManyAppend(a: seq<OtpRecord>, b: seq<OtpRecord>, q: Query)
    ensures DeleteMany(a + b, q) == DeleteMany(a, q) + DeleteMany(b, q)
    decreases |a|
  {
    if a != [] {
      var head := if Hits(q, a[0]) then [] else [a[0]];
      assert (a + b)[0] == a[0] && (a + b)[1..] == a[1..] + b;
      assert DeleteMany(a + b, q) == head + DeleteMany(a[1..] + b, q);
      DeleteManyAppend(a[1..], b, q);
      assert DeleteMany(a, q) == head + DeleteMany(a[1..], q);
    } else {
      assert a + b == b;
    }
  }

  /** Deleting by one filter and then another gives the same records, in the
      same order, as the other way round. */
  lemma {:induction false} DeleteManyCommutes(otps: seq<OtpRecord>, q1: Query, q2: Query)
    ensures DeleteMany(DeleteMany(otps, q1), q2) == DeleteMany(DeleteMany(otps, q2), q1)
    decreases |otps|
  {
    if otps != [] {
      var x := otps[0];
      var rest := otps[1..];
      var h1 := if Hits(q1, x) then [] else [x];
      var h2 := if Hits(q2, x) then [] else [x];
      assert DeleteMany(otps, q1) == h1 + DeleteMany(rest, q1);
      assert DeleteMany(otps, q2) == h2 + DeleteMany(rest, q2);
      DeleteManyAppend(h1, DeleteMany(rest, q1), q2);
      DeleteManyAppend(h2, DeleteMany(rest, q2), q1);
      DeleteManyCommutes(rest, q1, q2);
    }
  }

  /** Marking one record verified does not change what a delete by its event
      id leaves behind. */
  lemma {:induction false} MarkThenDelete(otps: seq<OtpRecord>, i: nat)
    requires i < |otps|
    ensures DeleteMany(otps[i := otps[i].(isVerified := true)], ForEvent(otps[i].eventId))
         == DeleteMany(otps, ForEvent(otps[i].eventId))
    decreases |otps|
  {
    var marked := otps[i := otps[i].(isVerified := true)];
    if i > 0 {
      assert marked[1..] == otps[1..][i - 1 := otps[i].(isVerified := true)];
      MarkThenDelete(otps[1..], i - 1);
    } else {
      assert marked[1..] == otps[1..];
    }
  }

  /** Records the TTL monitor may already have removed are never live, so
      whether it ran makes no difference to `findOne`'s verdict. */
  lemma SweepKeepsLive(otps: seq<OtpRecord>, cutoff: Timestamp, eventId: EventId, code: string, now: Timestamp)
    requires cutoff <= now
    ensures HasLive(DeleteMany(otps, ExpiredBefore(cutoff)), eventId, code, now)
        <==> HasLive(otps, eventId, code, now)
  {
    var swept := DeleteMany(otps, ExpiredBefore(cutoff));
    DeleteManyCounts(otps, ExpiredBefore(cutoff));
    if HasLive(otps, eventId, code, now) {
      var r :| r in otps && Live(r, eventId, code, now);
      assert r in swept;
    }
  }
}

=== FILE: schemas.dfy ===
/** The two stored record kinds, `Event` and `Otp`, with the field defaults
    their schemas apply when a document is created. A stored field the
    schema marks `required` or gives a default (`status`, `isVerified`) is a
    plain field here; any other is an `Option`, with `None` for a field the
    document does not carry. */
module Schemas {
  import opened Wrappers

  /** Store identifier of an event (a Mongo ObjectId in its string form). */
  type EventId = string

  /** Milliseconds since the epoch, as a JavaScript `Date` holds them. */
  type Timestamp = nat

  /** A latitude or longitude; carried, never computed with. */
  type Coord = real

  /** The closed set of values the schema's `enum` admits for `status`. */
  datatype EventStatus = CheckedIn | Started | Completed

  datatype Location = Location(lat: Coord, lng: Coord)

  /** One vendor's engagement at a place. `vendorId` and `location` are
      required; everything after `location` is optional. */
  datatype Event = Event(
    vendorId: string,
    status: EventStatus,
    location: Location,
    checkInPhoto: Option<string>,
    checkedInAt: Option<Timestamp>,
    startedAt: Option<Timestamp>,
    completedAt: Option<Timestamp>,
    preSetupPhoto: Option<string>,
    preSetupNotes: Option<string>,
    postSetupPhoto: Option<string>,
    postSetupNotes: Option<string>)

  /** A one-time code bound to an event id. All four fields are present on
      every stored record: three are required, `isVerified` has a default. */
  datatype OtpRecord = OtpRecord(
    eventId: EventId,
    code: string,
    isVerified: bool,
    expiresAt: Timestamp)

  /** The fields a caller hands to `create` for a new event; `status` may be
      left out, in which case the schema default applies. */
  datatype EventInput = EventInput(
    vendorId: string,
    status: Option<EventStatus>,
    location: Location,
    checkInPhoto: Option<string>,
    checkedInAt: Option<Timestamp>)

  /** The fields a caller hands to `create` for a new code; `isVerified` may be
      left out, in which case the schema default applies. */
  datatype OtpInput = OtpInput(
    eventId: EventId,
    code: string,
    isVerified: Option<bool>,
    expiresAt: Timestamp)

  /** The document `create` stores for an event: the given fields, `status`
      defaulting to CHECKED_IN, and every field the input does not mention
      absent. */
  function CreateEvent(input: EventInput): (e: Event)
    ensures e.vendorId == input.vendorId && e.location == input.location
    ensures input.status.None? ==> e.status == CheckedIn
    ensures input.status.Some? ==> e.status == input.status.value
    ensures e.checkInPhoto == input.checkInPhoto && e.checkedInAt == input.checkedInAt
    ensures NotYetStarted(e)
  {
    Event(
      vendorId := input.vendorId,
      status := input.status.GetOr(CheckedIn),
      location := input.location,
      checkInPhoto := input.checkInPhoto,
      checkedInAt := input.checkedInAt,
      startedAt := None,
      completedAt := None,
      preSetupPhoto := None,
      preSetupNotes := None,
      postSetupPhoto := None,
      postSetupNotes := None)
  }

  /** The document `create` stores for a code: `isVerified` defaults to false. */
  function CreateOtp(input: OtpInput): (r: OtpRecord)
    ensures r.eventId == input.eventId && r.code == input.code && r.expiresAt == input.expiresAt
    ensures r.isVerified <==> input.isVerified == Some(true)
  {
    OtpRecord(input.eventId, input.code, input.isVerified.GetOr(false), input.expiresAt)
  }

  /** None of the fields written after check-in is present yet. */
  predicate NotYetStarted(e: Event) {
    && e.startedAt.None?
    && e.completedAt.None?
    && e.preSetupPhoto.None?
    && e.preSetupNotes.None?
    && e.postSetupPhoto.None?
    && e.postSetupNotes.None?
  }

  /** The fields set at check-in and never written again. */
  predicate SameOrigin(a: Event, b: Event) {
    && a.vendorId == b.vendorId
    && a.location == b.location
    && a.checkInPhoto == b.checkInPhoto
    && a.checkedInAt == b.checkedInAt
  }
}

=== FILE: traces.dfy ===
/** The service as a sequence of requests against one store, each request
    handled atomically at its own time, with TTL monitor passes interleaved
    as requests of their own. A request that raises leaves the store as it
    was. Verification runs as written, so a body may carry a query operator
    in place of the code. */
module Traces {
  import opened Wrappers
  import opened Schemas
  import opened OtpStore
  import opened Decimal
  import opened EventsService
  import opened Lifecycle
  import opened OtpAuthority
  import opened OtpBody

  datatype Request =
    | CheckInReq(id: EventId, form: CheckInForm, photo: Option<string>)
    | SendOtpReq(eventId: EventId, draw: FourDigit)
    | VerifyOtpReq(eventId: EventId, otp: BodyValue)
    | PreSetupReq(eventId: EventId, photo: Option<string>, notes: Option<string>, vendorId: string)
    | PostSetupReq(eventId: EventId, photo: Option<string>, notes: Option<string>, vendorId: string)
    | Sweep

  datatype Timed = Timed(request: Request, at: Timestamp)

  /** The store after one request at time `now`. A check-in naming an id the
      store already holds is refused by the store's unique `_id` index. */
  function Handle(s: Store, isValid: string -> bool, cast: IdCast, req: Request, now: Timestamp): Store {
    match req
    case CheckInReq(id, form, photo) =>
      if id in s.events then s else CheckIn(s, id, form, photo, now).store
    case SendOtpReq(eventId, draw) =>
      (match SendOtp(s, isValid, eventId, draw, now)
       case Success(step) => step.store
       case Failure(_) => s)
    case VerifyOtpReq(eventId, otp) =>
      (match VerifyOtpAsWritten(s, cast, eventId, otp, now)
       case Success(step) => step.store
       case Failure(_) => s)
    case PreSetupReq(eventId, photo, notes, vendorId) =>
      (match PreSetup(s, cast, eventId, photo, notes, vendorId)
       case Success(step) => step.store
       case Failure(_) => s)
    case PostSetupReq(eventId, photo, notes, vendorId) =>
      (match PostSetup(s, cast, eventId, photo, notes, vendorId, now)
       case Success(step) => step.store
       case Failure(_) => s)
    case Sweep => TtlSweep(s, now)
  }

  /** The store after every request of `trace`, in order. */
  function Run(s: Store, isValid: string -> bool, cast: IdCast, trace: seq<Timed>): Store
    decreases |trace|
  {
    if trace == [] then s
    else Run(Handle(s, isValid, cast, trace[0].request, trace[0].at), isValid, cast, trace[1..])
  }

  /** The requests' times never run backwards, starting from `clock`. */
  predicate TimesFrom(trace: seq<Timed>, clock: Timestamp)
    decreases |trace|
  {
    trace == [] || (clock <= trace[0].at && TimesFrom(trace[1..], trace[0].at))
  }

  /** The time of the last request, or `clock` for an empty trace. */
  function LastTime(trace: seq<Timed>, clock: Timestamp): Timestamp
    decreases |trace|
  {
    if trace == [] then clock else LastTime(trace[1..], trace[0].at)
  }

  /** Whether a request issues a new code for `eventId`. */
  predicate Issues(req: Request, eventId: EventId) {
    req.SendOtpReq? && req.eventId == eventId
  }

  /** No request of the trace issues a code for `eventId`. */
  predicate IssuesNone(trace: seq<Timed>, eventId: EventId) {
    forall i | 0 <= i < |trace| :: !Issues(trace[i].request, eventId)
  }

  /** One request preserves the store invariant. */
  lemma HandlePreservesInv(s: Store, clock: Timestamp, isValid: string -> bool, cast: IdCast, req: Request, now: Timestamp)
    requires Inv(s, clock, isValid) && clock <= now
    ensures Inv(Handle(s, isValid, cast, req, now), now, isValid)
  {
    InvLater(s, clock, now, isValid);
    match req
    case CheckInReq(id, form, photo) =>
      if id !in s.events {
        CheckInPreservesInv(s, clock, isValid, id, form, photo, now);
      }
    case SendOtpReq(eventId, draw) =>
      if SendOtp(s, isValid, eventId, draw, now).Success? {
        SendOtpPreservesInv(s, clock, isValid, eventId, draw, now);
      }
    case VerifyOtpReq(eventId, otp) =>
      if VerifyOtpAsWritten(s, cast, eventId, otp, now).Success? {
        AsWrittenPreservesInv(s, clock, isValid, cast, eventId, otp, now);
      }
    case PreSetupReq(eventId, photo, notes, vendorId) =>
      if PreSetup(s, cast, eventId, photo, notes, vendorId).Success? {
        PreSetupPreservesInv(s, clock, isValid, cast, eventId, photo, notes, vendorId, now);
      }
    case PostSetupReq(eventId, photo, notes, vendorId) =>
      if PostSetup(s, cast, eventId, photo, notes, vendorId, now).Success? {
        PostSetupPreservesInv(s, clock, isValid, cast, eventId, photo, notes, vendorId, now);
      }
    case Sweep =>
      TtlSweepPreservesInv(s, now, isValid, now);
  }

  /** Every store reachable from one satisfying the invariant, with time
      never running backwards, satisfies it too: consistent timestamps and
      status, and at most one unverified four-digit code per id string. */
  lemma {:induction false} RunPreservesInv(s: Store, clock: Timestamp, isValid: string -> bool, cast: IdCast, trace: seq<Timed>)
    requires Inv(s, clock, isValid) && TimesFrom(trace, clock)
    ensures Inv(Run(s, isValid, cast, trace), LastTime(trace, clock), isValid)
    decreases |trace|
  {
    if trace != [] {
      HandlePreservesInv(s, clock, isValid, cast, trace[0].request, trace[0].at);
      RunPreservesInv(Handle(s, isValid, cast, trace[0].request, trace[0].at), trace[0].at, isValid, cast, trace[1..]);
    }
  }

  /** No request removes an event or rewrites what its check-in recorded. */
  lemma HandleKeepsOrigin(s: Store, isValid: string -> bool, cast: IdCast, req: Request, now: Timestamp, id: EventId)
    requires id in s.events
    ensures var s' := Handle(s, isValid, cast, req, now);
      id in s'.events && SameOrigin(s'.events[id], s.events[id])
  {
  }

  /** Events are never deleted, and their owner, location, check-in photo and
      check-in time stay as check-in stored them, over any trace. */
  lemma {:induction false} RunKeepsOrigin(s: Store, isValid: string -> bool, cast: IdCast, trace: seq<Timed>, id: EventId)
    requires id in s.events
    ensures var s' := Run(s, isValid, cast, trace);
      id in s'.events && SameOrigin(s'.events[id], s.events[id])
    decreases |trace|
  {
    if trace != [] {
      var s1 := Handle(s, isValid, cast, trace[0].request, trace[0].at);
      HandleKeepsOrigin(s, isValid, cast, trace[0].request, trace[0].at, id);
      RunKeepsOrigin(s1, isValid, cast, trace[1..], id);
    }
  }

  /** Every store the service can reach from an empty database, with time
      never running backwards, is consistent; in particular it holds at
      most one code under each id string. */
  lemma ReachableStoresConsistent(isValid: string -> bool, cast: IdCast, clock: Timestamp,
                                  trace: seq<Timed>, eventId: EventId)
    requires TimesFrom(trace, clock)
    ensures Inv(Run(Store(map[], []), isValid, cast, trace), LastTime(trace, clock), isValid)
    ensures |CodesFor(Run(Store(map[], []), isValid, cast, trace).otps, eventId)| <= 1
  {
    var s0 := Store(map[], []);
    EmptyStoreInv(clock, isValid);
    RunPreservesInv(s0, clock, isValid, cast, trace);
    AtMostOneCodePerId(Run(s0, isValid, cast, trace), LastTime(trace, clock), isValid, eventId);
  }

  /** Only issuing a code under an id string adds a code under it; every
      other request keeps or shrinks the codes held under it. */
  lemma HandleNeverAddsCodes(s: Store, isValid: string -> bool, cast: IdCast, req: Request, now: Timestamp, eventId: EventId)
    requires !Issues(req, eventId)
    ensures CodesFor(Handle(s, isValid, cast, req, now).otps, eventId) <= CodesFor(s.otps, eventId)
  {
    var s' := Handle(s, isValid, cast, req, now);
    forall c | c in CodesFor(s'.otps, eventId)
      ensures c in CodesFor(s.otps, eventId)
    {
      var r :| r in s'.otps && r.eventId == eventId && r.code == c;
      assert multiset(s'.otps)[r] > 0;
      assert r in s.otps;
    }
  }

  /** Over a trace that issues no code under an id string, the codes held
      under it only shrink. */
  lemma {:induction false} RunNeverAddsCodes(s: Store, isValid: string -> bool, cast: IdCast, trace: seq<Timed>, eventId: EventId)
    requires IssuesNone(trace, eventId)
    ensures CodesFor(Run(s, isValid, cast, trace).otps, eventId) <= CodesFor(s.otps, eventId)
    decreases |trace|
  {
    if trace != [] {
      HandleNeverAddsCodes(s, isValid, cast, trace[0].request, trace[0].at, eventId);
      assert IssuesNone(trace[1..], eventId);
      RunNeverAddsCodes(Handle(s, isValid, cast, trace[0].request, trace[0].at), isValid, cast, trace[1..], eventId);
    }
  }

  /** A code not stored under an id string cannot verify for it after any
      trace that issues no code under that string. */
  lemma UnstoredStaysDead(s: Store, isValid: string -> bool, cast: IdCast, trace: seq<Timed>,
                          eventId: EventId, code: string, now: Timestamp)
    requires code !in CodesFor(s.otps, eventId)
    requires IssuesNone(trace, eventId)
    ensures VerifyOtp(Run(s, isValid, cast, trace), cast, eventId, code, now) == Failure(BadRequest(InvalidOtpMessage))
  {
    RunNeverAddsCodes(s, isValid, cast, trace, eventId);
    LiveCodeIsStored(Run(s, isValid, cast, trace).otps, eventId, code, now);
  }

  /** Supersession over any later activity: once a second, different code
      has been issued under an id string, the first one fails for as long as
      no further code is issued under that string, whatever else happens. */
  lemma SupersededForever(s: Store, isValid: string -> bool, cast: IdCast, eventId: EventId,
                          d1: FourDigit, t1: Timestamp, d2: FourDigit, t2: Timestamp,
                          trace: seq<Timed>, now: Timestamp)
    requires SendOtp(s, isValid, eventId, d1, t1).Success? && d1 != d2
    requires IssuesNone(trace, eventId)
    ensures var first := SendOtp(s, isValid, eventId, d1, t1).value;
      var second := SendOtp(first.store, isValid, eventId, d2, t2).value;
      VerifyOtp(Run(second.store, isValid, cast, trace), cast, eventId, first.reply.otp, now).Failure?
  {
    var first := SendOtp(s, isValid, eventId, d1, t1).value;
    var second := SendOtp(first.store, isValid, eventId, d2, t2).value;
    ShowInjective(d1, d2);
    forall c | c in CodesFor(second.store.otps, eventId) ensures c == second.reply.otp {
      var r :| r in second.store.otps && r.eventId == eventId && r.code == c;
      assert multiset(second.store.otps)[r] > 0;
    }
    UnstoredStaysDead(second.store, isValid, cast, trace, eventId, first.reply.otp, now);
  }

  /** Single use over any later activity: once a code has verified, no code
      verifies under that id string again until a new one is issued under it. */
  lemma ConsumedForever(s: Store, isValid: string -> bool, cast: IdCast, eventId: EventId, code: string, now: Timestamp,
                        trace: seq<Timed>, code': string, later: Timestamp)
    requires VerifyOtp(s, cast, eventId, code, now).Success?
    requires IssuesNone(trace, eventId)
    ensures VerifyOtp(Run(VerifyOtp(s, cast, eventId, code, now).value.store, isValid, cast, trace), cast, eventId, code', later).Failure?
  {
    var s1 := VerifyOtp(s, cast, eventId, code, now).value.store;
    UnstoredStaysDead(s1, isValid, cast, trace, eventId, code', later);
  }

  /** The walk-through of a vendor's visit: check in, get a code, verify it,
      save pre-setup notes, complete with post-setup notes. Each step
      succeeds and leaves the status the lifecycle prescribes. The id is the
      one the store returned, which casts back to itself. */
  lemma HappyPath(isValid: string -> bool, cast: IdCast, id: EventId, lat: Coord, lng: Coord, draw: FourDigit,
                  t0: Timestamp, t1: Timestamp, t2: Timestamp, t3: Timestamp, t4: Timestamp)
    requires isValid(id) && cast(id) == id
    requires t0 <= t1 <= t2 <= t3 <= t4 && t2 < t1 + OtpLifetime
    ensures var s0 := Store(map[], []);
      var c := CheckIn(s0, id, CheckInForm("v1", lat, lng), None, t0);
      var sent := SendOtp(c.store, isValid, id, draw, t1);
      && c.reply.event.status == CheckedIn
      && sent.Success?
      && var verified := VerifyOtp(sent.value.store, cast, id, sent.value.reply.otp, t2);
      && verified.Success?
      && verified.value.store.events[id].status == Started
      && var pre := PreSetup(verified.value.store, cast, id, None, Some("ok"), "v1");
      && pre.Success?
      && pre.value.store.events[id].status == Started
      && pre.value.store.events[id].preSetupNotes == Some("ok")
      && var post := PostSetup(pre.value.store, cast, id, None, Some("done"), "v1", t4);
      && post.Success?
      && post.value.store.events[id].status == Completed
      && post.value.store.events[id].completedAt == Some(t4)
  {
    var s0 := Store(map[], []);
    var c := CheckIn(s0, id, CheckInForm("v1", lat, lng), None, t0);
    var sent := SendOtp(c.store, isValid, id, draw, t1);
    FreshCodeVerifiesIff(c.store, isValid, cast, id, draw, t1, sent.value.reply.otp, t2);
  }

  /** A code that matches nothing fails, and the request leaves the whole
      store, events and codes, as it was. */
  lemma WrongCodeChangesNothing(s: Store, cast: IdCast, eventId: EventId, code: string, now: Timestamp)
    requires !HasLive(s.otps, eventId, code, now)
    ensures VerifyOtp(s, cast, eventId, code, now) == Failure(BadRequest(InvalidOtpMessage))
    ensures forall isValid: string -> bool ::
      Handle(s, isValid, cast, VerifyOtpReq(eventId, Text(code)), now) == s
  {
    AsWrittenOnText(s, cast, eventId, code, now);
  }
}

=== FILE: wrappers.dfy ===
/** The value shapes shared by every module: an optional document field, and
    the outcome of an operation or a check that may raise one of the
    service's HTTP exceptions. */
module Wrappers {

  /** An optional value; `None` stands for an absent (undefined) document field. */
  datatype Option<+T> = None | Some(value: T) {

    /** The wrapped value, or `default` when absent. */
    function GetOr(default: T): T {
      match this
      case Some(v) => v
      case None => default
    }
  }

  /** Either the value an operation returns or the exception it raises. */
  datatype Result<+R, +E> = Success(value: R) | Failure(error: E)

  /** A check that either passes or raises. */
  datatype Outcome<+E> = Pass | Fail(error: E)
}
